=== FILE: README.md ===
# chothia: canonical-class assignment for antibody CDR loops, in Dafny

`chothia` reads a numbered antibody sequence and gives a canonical class to
each complementarity-determining region (CDR) loop. The input is one residue
per line, such as `L24 R`. The classes come from a rule file of class
definitions. Each definition has a `LOOP` header (loop id, class name and
loop length), an optional `SOURCE` line, and one line per key position:
a residue label and the residue types allowed there.

This project models the core of `chothia.c`:

- **FindRes** (module `Residues`). It finds a residue label in the sequence
  array in three passes: first an exact match; then, when the query has an
  insertion code, the same label with that code stepped down one letter at a
  time while it stays at or above `A`; finally the stored labels cut at
  their own insertion code (the `TERMALPHA` macro, module `Text`) are
  compared with the cut query.
- **ReportACanonical** (module `Canonicals`). It walks the definitions in
  file order. A definition is a candidate when its loop id and length are
  those of the loop. The walk stops at the first candidate whose key
  positions all hold an allowed residue. Otherwise it keeps the first
  candidate with the fewest mismatches, below the ceiling of 10000. With
  verbose output, that closest class's mismatches are listed.
- **ReportCanonicals** (module `Loops`). It takes the first `NCDR` = 5
  entries of the fixed six-entry boundary table. For each one it finds the
  start and stop residues, computes the length `1 + stop - start`, and
  classifies the loop. A loop with a missing boundary residue is reported as
  such and skipped. The sixth entry, CDR-H3, is never processed.
- **ReadChothiaData** (module `Readers`). A line-by-line state machine over
  the rule file. Blank lines and `!`/`#` comments are skipped. `SOURCE`,
  `CHOTHIANUM` and `LOOP` are case-insensitive keyword prefixes. Any other
  line adds a key position to the current entry, if there is one; before
  the first `LOOP` line such lines are ignored. Each key list is ended with the `"-1"` sentinel.
  Reading fails when a definition gets more than `MAXCHOTHRES` = 80 key
  positions.
- **ReadInputData** (module `InputData`). It stores, in file order, the label
  and the first character of the residue word of every line that starts with
  `L` or `H` followed by a digit. It gives up, returning 0, on such a line
  without a residue word.

Code that steps through arrays and lines is modelled as methods with loops:
`FindRes` and its passes, `TermAlpha`, the two key loops of
`ReportACanonical`, `ReportCanonicals`, and the two readers. Each method is
proved equal to a specification function (`Lookup`, `Stem`,
`CanonicalReport`, `Reports`, `ParseRules`, `InputRecords`). Lemmas then
state what each function promises. The sequence stays an
`array<Residue>` with its length `nres`, as in the C code. `ReadInputData`
writes into that array. The linked list of definitions is a
`seq<ClassDef>` passed as a parameter. Files are given as sequences of
lines without their terminators.

Some facts about `chothia.c` that a reader might not expect, all kept in
the model:

- an entry of the rule file ends only where the next `LOOP` line starts a
  new one, or at the end of the file; no other line closes it;
- residue labels are looked up as they are written; the `CHOTHIANUM` flag
  is set in the rule set but nothing in the file reads it;
- the classes of a loop are not ordered by any priority: the first exact
  match in file order wins, and otherwise the first candidate with the
  fewest mismatches;
- the comment of `ReportCanonicals` (chothia.c:362) speaks of all 6 loops,
  but the code processes only the first `NCDR` = 5 entries of the boundary
  table (chothia.c:79), so CDR-H3 is never classified.

## Model

| member | source | states |
|---|---|---|
| Text.InsertPos | chothia.c:445-459 | The insertion code is the first letter after position 0 of the label (position 0 is the chain name); no character between is a letter; -1 when there is none. |
| Text.Stem | chothia.c:81-88 | The label cut at its insertion code is a prefix of it with no letter after position 0, and it is cut exactly at the first letter after the chain name, if there is one. |
| Text.StemIdempotent | chothia.c:81-88 | Cutting a label twice gives what cutting it once gave. |
| Text.TermAlpha | chothia.c:81-88 | The TERMALPHA loop applied from position 1 leaves exactly `Stem` of the label. |
| Text.WordAt | chothia.c:277-283 | The word found from position `i` is the maximal run of non-space characters starting at the first non-space character at or after `i`: from `i` to the returned position, a character is white space exactly when it is outside the word; the word ends at white space or at the end of the line; the returned position is the next non-space character or the end; an empty word means the line is used up. |
| Text.WordAtFindsWord | chothia.c:277-283 | On white space, then a word, then nothing or white space, GetWord returns exactly that word. |
| Text.WordShape | chothia.c:294-295 | A word holds no white space, and a word looked for at a non-space character starts there and is not empty. |
| Text.ScanInt | chothia.c:283-284 | `sscanf("%d")` on the length word succeeds exactly when the word starts with a digit, or with a sign followed by a digit; the value is the decimal value of the longest run of digits after the sign, negated after a `-`. |
| Text.DecimalValue | chothia.c:283-284 | The decimal digits of a number, as `printf("%d")` writes them, have that number as their value. |
| Text.ScanIntReadsDecimal | chothia.c:283-284 | A non-negative length written in decimal is read back as itself, whatever non-digit text follows it. |
| Text.ScanIntReadsNegative | chothia.c:283-284 | A negative length written as `-` and the digits of its magnitude is read back as itself, whatever non-digit text follows it. |
| Text.WordAtSlice | chothia.c:277-283 | A word of the line that ends at white space or at the end of the line is exactly what GetWord returns from its first character, and when exactly one space follows it GetWord goes on just after that space. |
| Text.WordThenWord | chothia.c:277-283 | A word followed by one space and a non-space character is found by GetWord as exactly that word, and GetWord goes on at that character. |
| Text.LastWord | chothia.c:283 | A word that runs to the end of the line is exactly what GetWord finds there. |
| Text.KeywordThenText | chothia.c:244-251 | `kw text`, with `text` empty or starting with a non-space, has the keyword at its start and GetWord leaves exactly `text` after it. |
| Text.KeywordWithinWord | chothia.c:244-258 | A line whose first word is `r` has a keyword at its start only if `r` does. |
| Text.KeywordFirst | chothia.c:244 | A text that has a keyword at its start has the keyword's first letter, ignoring case, as its first character. |
| Text.HasKeyword | chothia.c:244 | `upstrncmp(buffp, kw, |kw|) == 0`: the text has the keyword at that position, ignoring case. Its meaning for whole lines is stated by `Readers.KeywordCaseIgnored` and `Readers.SameKeywordSameKind`. |
| Residues.IndexOf | chothia.c:439-443 | The exact-match pass returns the first index with that label, or -1 when no entry has it. |
| Residues.StemIndex | chothia.c:477-487 | The last pass returns the first index whose label, cut at its insertion code, equals the cut query, or -1 when none does. |
| Residues.StepDown | chothia.c:461-474 | A hit while stepping down has the query's label with the insertion code replaced by a code from `A` up to the starting code. |
| Residues.Lookup | chothia.c:430-491 | An exact match is always found, and found first; a query without an insertion code finds only an exact match; any other hit is a stepped-down label or one with the same cut label. |
| Residues.ScanExact | chothia.c:439-443 | The strcmp loop over the first `nres` entries returns `IndexOf` of them. |
| Residues.ScanStems | chothia.c:477-487 | The TERMALPHA comparison loop returns `StemIndex` of the first `nres` entries. |
| Residues.StepInsertCode | chothia.c:461-474 | The in-place decrement loop returns `StepDown` from one below the query's insertion code. |
| Residues.FindRes | chothia.c:430-491 | FindRes returns -1 or an index below `nres`, and that index is `Lookup` of the first `nres` entries. |
| Residues.StepDownFindsHighest | chothia.c:461-474 | Stepping down finds the highest present code at or below the start, at that label's first occurrence. |
| Residues.StepDownFails | chothia.c:461-474 | Stepping down finds nothing when no code from `A` to the start gives a present label. |
| Residues.LookupPrefersLowerCode | chothia.c:461-474 | Without an exact match, the highest lower insertion code that is present wins over every label without an insertion code. |
| Residues.LookupFallsBackToStem | chothia.c:476-487 | Only when no stepped-down code is present is the cut-label comparison used, and it gives the first residue whose cut label matches. |
| Residues.H35BFindsH35A | chothia.c:427-428 | The revision of 18.08.95: `H35B` finds `H35A` before `H35`. |
| Residues.LowerCaseCodeReachesCapitals | chothia.c:462-473 | A lower-case code steps down through the characters between `Z` and `a`, then through the capitals: `H35b` finds `H35Z` before `H35`. |
| Canonicals.Allows | chothia.c:536-537 | `strchr(restype, code) != NULL`: the code is one of the allowed residues, or NUL. Used by `KeyMatches`, whose meaning `Canonicals.CountStep` states. |
| Canonicals.KeyMatches | chothia.c:534-543 | A key position is satisfied when FindRes finds its residue and the residue is allowed there; `Canonicals.CountStep` and `Canonicals.NoMismatchIffAllMatch` state what this means for the count. |
| Canonicals.Mismatches | chothia.c:528-544 | NMismatch of a definition: the failing active key positions. `Canonicals.CheckKeys` proves the key loop computes it, and `Canonicals.NoMismatchIffAllMatch` that it is 0 exactly when every key position matches. |
| Canonicals.ActiveKeys | chothia.c:532 | The key positions scanned are a prefix of the list, none of them the sentinel, ending at the first sentinel or at the end of the list. |
| Canonicals.ScanStops | chothia.c:532 | A scan from the first key position stops right after the active keys. |
| Canonicals.CountMismatches | chothia.c:531-544 | A mismatch count is at most the number of key positions. |
| Canonicals.NoMismatchIffAllMatch | chothia.c:528-546 | OK survives the key loop exactly when every key position holds an allowed residue. |
| Canonicals.CountMismatchesAppend | chothia.c:531-544 | Counting over two runs of key positions adds up. |
| Canonicals.Explanation | chothia.c:583-594 | The verbose explanation has one line per mismatch counted. |
| Canonicals.ExplanationExact | chothia.c:583-594 | Every line describes a failing key position, with what FindRes found there, and every failing position has its line. |
| Canonicals.ExplanationAppend | chothia.c:583-594 | The explanation keeps key order. |
| Canonicals.CountStep | chothia.c:539-543 | One more key position adds one to the count exactly when its residue is missing or not allowed. |
| Canonicals.ExplanationStep | chothia.c:587-593 | One more key position adds its line exactly when its residue is missing or not allowed. |
| Canonicals.CheckKey | chothia.c:534-543 | The test of one key position fails exactly when the position does not match, and the count of mismatches grows by that. |
| Canonicals.ExplainKey | chothia.c:586-593 | One key position contributes its description exactly when it fails, following the lines of the positions before it. |
| Canonicals.ScanFrom | chothia.c:523-560 | A match found by the scan is a definition at or after the scan's position; a closest class is a definition index. |
| Canonicals.Classify | chothia.c:523-560 | A matched class is a candidate, with the loop's id and length. |
| Canonicals.ScanStep | chothia.c:546-557 | One definition keeps the scan's invariant: no exact match so far, and the kept candidate is the first with the fewest mismatches. |
| Canonicals.ScanFromSound | chothia.c:523-560 | From any state the invariant describes, the scan reaches a sound decision. |
| Canonicals.ClassifyCorrect | chothia.c:523-560 | A match is the first exact match in file order. Without one, no definition matches, and the closest class is the first with the fewest mismatches. There is no closest class exactly when no candidate is below the ceiling. |
| Canonicals.NoCandidateIffNoClosest | chothia.c:575-578 | With fewer than 10000 key positions per definition, "Length mismatch" (no closest class) is reported exactly when no definition has the loop's id and length. |
| Canonicals.CanonicalReport | chothia.c:562-597 | The report's decision is `Classify`; an explanation is given only for an unmatched loop with a closest class in verbose mode, and then it is the `Explanation` of that class's active key positions: non-empty, with one line per mismatch. |
| Canonicals.ExplainMismatches | chothia.c:583-594 | The verbose loop returns the explanation of the closest class's active key positions. |
| Canonicals.CheckKeys | chothia.c:528-544 | The key loop counts exactly the definition's mismatches, and OK is left set exactly when there are none. |
| Canonicals.ReportACanonical | chothia.c:511-598 | The method returns `CanonicalReport` for the first `nres` residues. |
| Loops.ReportLoop | chothia.c:387-406 | One pass of the loop: the start then the stop residue are looked up, and the loop is classified with length `1 + stop - start`. `Loops.ReportLoopSpec` states its meaning. |
| Loops.ReportLoopSpec | chothia.c:385-405 | A loop is skipped exactly when a boundary residue is missing, and the start is named when it is the one missing. Otherwise the length is `1 + stop - start`, at most the sequence length. A matched class has the loop's name and that length. |
| Loops.ReversedBoundsStillClassified | chothia.c:403-406 | The length is not checked: a stop found before the start still gives a classified loop, with a length of zero or less. |
| Loops.ReportOne | chothia.c:387-406 | One pass of the loop returns `ReportLoop` for its table entry. |
| Loops.Reports | chothia.c:385-407 | The reports for the first `n` table entries, in order; `Loops.ReportsAt` states that report `k` is the one for entry `k`. |
| Loops.ReportsAt | chothia.c:385-407 | The reports come in table order, one per processed entry. |
| Loops.H3NeverProcessed | chothia.c:79 | The table's sixth entry is H3, and none of the first NCDR = 5 entries is H3. |
| Loops.NoReportForH3 | chothia.c:376-385 | No report is ever made for CDR-H3. |
| Loops.ReportCanonicals | chothia.c:369-408 | Exactly NCDR reports are made, one per table entry in order. |
| Readers.KindOf | chothia.c:236-295 | A line is trimmed of leading white space and classified; `Readers.CommentsIgnored`, `Readers.LeadingSpaceIgnored`, `Readers.KeywordCaseIgnored` and `Readers.KindWords` state its meaning, and `Readers.LoopLineFields`, `Readers.SourceLineText`, `Readers.ChothiaNumLineKind` and `Readers.KeyLineFields` state which fields it reads back from each kind of line. |
| Readers.TrimmedKind | chothia.c:241-295 | The trimmed line's dispatch: blank or comment, then SOURCE, CHOTHIANUM, LOOP, otherwise a key line; its meaning is stated by `Readers.SameKeywordSameKind`, `Readers.CapitalizedKind`, `Readers.SourceDispatch`, `Readers.LoopDispatch`, `Readers.LoopTrimmed`, `Readers.SourceTrimmed`, `Readers.ChothiaNumTrimmed` and `Readers.KeyTrimmed`. |
| Readers.TrimmedAlready | chothia.c:237-239 | A line that does not start with white space is classified as it stands. |
| Readers.KindAfterSpace | chothia.c:237-239 | White space put in front of a line that starts with a non-space character does not change its kind. |
| Readers.SourceDispatch | chothia.c:244-252 | A line starting with `SOURCE` in any case is a SOURCE line whose text is what follows the keyword's word and the white space after it. |
| Readers.LoopDispatch | chothia.c:254-284 | A line starting with `LOOP` in any case (and so with neither SOURCE nor CHOTHIANUM) is read field by field from after the keyword's word. |
| Readers.LoopFieldsOf | chothia.c:279-284 | Three words separated by single spaces are read back as loop id, class name and `sscanf` of the length word. |
| Readers.LoopFieldsAt | chothia.c:279-284 | A text whose first, second and remaining parts are words separated by single spaces is read as loop id, class name and `sscanf` of the length word. |
| Readers.KeyFieldsOf | chothia.c:294-295 | Two words separated by a single space are read back as the residue label and the allowed residue types. |
| Readers.LoopTrimmed | chothia.c:258-284 | `LOOP id class len` is a LOOP line with exactly those id and class and `sscanf` of `len` as its length. |
| Readers.LoopLineFields | chothia.c:236-284 | Any white space, then `LOOP`, a loop id, a class name and a non-negative length written in decimal, is read back as that id, class and length. |
| Readers.SourceTrimmed | chothia.c:244-252 | `SOURCE text`, with `text` empty or starting with a non-space, is a SOURCE line with exactly that text. |
| Readers.SourceLineText | chothia.c:236-252 | Any white space, then `SOURCE text`, is read back as a SOURCE line with exactly that text. |
| Readers.ChothiaNumTrimmed | chothia.c:254-257 | Every line starting with `CHOTHIANUM` sets the numbering flag, whatever follows. |
| Readers.ChothiaNumLineKind | chothia.c:236-257 | Any white space, then `CHOTHIANUM` and anything, is a CHOTHIANUM line. |
| Readers.KeyTrimmed | chothia.c:289-295 | `label types`, with a label that starts with neither `!` nor `#` nor one of the three keywords, then one space and a word of residue types, is a key line with exactly that label and those types. |
| Readers.KeyLineFields | chothia.c:236-295 | Any white space, then such a label and its types, is read back as a key line with exactly that label and those types. |
| Readers.StepKind | chothia.c:243-303 | What one classified line does to the reader; `Readers.StepConsistent`, `Readers.StepHeaders` and `Readers.CompletedStep` state its meaning. |
| Readers.ParseRules | chothia.c:232-311 | The rule base a file yields; `Readers.ParsedEntries`, `Readers.ParsedNumbering` and `Readers.ParsedDefsTerminated` state its meaning. |
| Readers.KindWords | chothia.c:276-295 | The fields a LOOP or key line yields are single words with no white space, and a key line's residue label is never empty. |
| Readers.CommentsIgnored | chothia.c:238-241 | A line that is white space up to its end, or up to a `!` or `#`, is skipped. |
| Readers.LeadingSpaceIgnored | chothia.c:237-240 | White space in front of a line does not change how the line is taken. |
| Readers.SameKeywordSameKind | chothia.c:243-288 | Two trimmed lines that start with the same keyword, ignoring case, and have the same text after the keyword's word are taken the same way. |
| Readers.CapitalizedKind | chothia.c:244-258 | On a trimmed line, writing the keyword it starts with in capitals does not change how the line is taken. |
| Readers.KeywordCaseIgnored | chothia.c:244-258 | A line whose first word starts with `SOURCE`, `CHOTHIANUM` or `LOOP` in any mix of cases is taken as it would be with the keyword in capitals. |
| Readers.SetLast | chothia.c:251 | Only the current (last) definition is changed. |
| Readers.Terminate | chothia.c:260-262 | Ending the current key list appends the sentinel to the last definition's key positions and changes nothing else: the number of definitions, every earlier definition, and the last one's header and source stay as they were. |
| Readers.TerminateFinishes | chothia.c:307-309 | Ending the current key list finishes every definition. |
| Readers.StepConsistent | chothia.c:241-304 | Every line keeps the reader consistent: the current entry has `count` key positions, at most 80, and every earlier entry ends with the sentinel. |
| Readers.RunConsistent | chothia.c:234-305 | A run that does not fail leaves the reader consistent. |
| Readers.ParsedDefsTerminated | chothia.c:296-309 | Every definition read ends with the sentinel, and at most 80 key positions come before its first sentinel. |
| Readers.ParsedNoCandidateIffNoClosest | chothia.c:296-301 | For rules read from a file, "Length mismatch" is reported exactly when no definition has the loop's id and length. |
| Readers.Headers | chothia.c:258-288 | There is one header per definition. |
| Readers.HeadersSetLast | chothia.c:246-252 | Changing the current entry's source or keys keeps the headers. |
| Readers.StepHeaders | chothia.c:241-304 | A LOOP line adds its own header; no other line changes the headers. |
| Readers.RunHeaders | chothia.c:234-305 | A run adds the headers of its LOOP lines, in file order. |
| Readers.ParsedHeaders | chothia.c:258-288 | There is one definition per LOOP line, in file order, with that line's loop id, class name and length (the headers of the definitions are the file's LOOP lines). |
| Readers.RunNumbering | chothia.c:254-257 | A run ends with the numbering flag set exactly when it was set already or one of its lines is a CHOTHIANUM line. |
| Readers.ParsedNumbering | chothia.c:232-257 | The rule base asks for Chothia numbering exactly when the file has a CHOTHIANUM line. |
| Readers.NoEntryYet | chothia.c:246-303 | Before the first LOOP line, SOURCE and key lines are ignored and reading cannot fail. |
| Readers.NoLoopNoDefinitions | chothia.c:246-303 | A file without a LOOP line yields no definitions, and reading it succeeds. |
| Readers.EntryAt | chothia.c:258-288 | The definition a LOOP line starts carries that line's loop id, class name and length. |
| Readers.OverfullStep | chothia.c:292-301 | Some entry from line `n` on is overfull exactly when line `n` is a LOOP line followed by more than 80 key lines before the next one, or some entry after it is overfull. |
| Readers.RunFails | chothia.c:241-303 | Reading on from line `n` fails exactly when the current entry's key positions, plus the key lines before the next LOOP line, exceed 80, or a later LOOP line is followed by more than 80 key lines; SOURCE, CHOTHIANUM and comment lines do not reset the count. |
| Readers.LoopFills | chothia.c:258-288 | A LOOP line ends the current key list and starts the entry that the lines after it, up to the next LOOP line, fill in. |
| Readers.LoopCompletes | chothia.c:258-288 | A LOOP line leaves unchanged the definitions the reader will end with. |
| Readers.KeyCompletes | chothia.c:292-302 | A key line of an open entry moves its key position from the lines still to read into the entry, leaving the final definitions unchanged. |
| Readers.OtherCompletes | chothia.c:241-257 | A blank, comment, SOURCE or CHOTHIANUM line, or a key line before the first LOOP line, leaves the final definitions unchanged. |
| Readers.CompletedStep | chothia.c:241-304 | Every line that does not make reading fail leaves the final definitions unchanged. |
| Readers.CompletedAtEnd | chothia.c:307-309 | At the end of the file only the current key list is still to be ended. |
| Readers.RunEntries | chothia.c:234-309 | A run that does not fail ends, once its last key list is ended, with the current entry completed by the lines up to the next LOOP line, then one definition per later LOOP line. |
| Readers.ParsedEntries | chothia.c:232-312 | Reading fails exactly when some LOOP line is followed by more than 80 key lines before the next LOOP line. Otherwise there is one definition per LOOP line, in file order: that line's loop id, class name and length; the text after the keyword of the last SOURCE line of its entry, or an empty source when there is none; and the key lines of its entry, in order, ended by the sentinel. Key and SOURCE lines before the first LOOP line are dropped. |
| Readers.ReadChothiaData | chothia.c:215-312 | The line loop returns `ParseRules` of the file: it fails exactly when some entry has more than 80 key lines; otherwise its definitions are those of `ParsedEntries`, and the numbering flag is set exactly when the file has a CHOTHIANUM line. |
| InputData.LineRecord | chothia.c:333-346 | What one line stores: the label and first residue character of a taken line with a residue word, nothing otherwise; `InputData.LineRecordLabelled` states what is stored, and `InputData.LineRecordFields` that a line `label residues...` stores exactly that label and the first character of its residue word. |
| InputData.LineRecordAt | chothia.c:333-346 | A taken line whose first word is followed by one space and a second word stores the first word as label and the first character of the second word as code. |
| InputData.LineRecordFields | chothia.c:333-346 | A line made of a label starting with L or H and a digit, one space, a residue word and nothing or white space after it stores exactly that label and the first character of the residue word. |
| InputData.RecordsFrom | chothia.c:331-349 | The residues stored from line `n` on, or failure; `InputData.FailsFromIffMalformed` and `InputData.CountsFrom` state its meaning. |
| InputData.InputRecords | chothia.c:331-349 | The residues a whole file stores, or failure; `InputData.InputFailsIffMalformed` and `InputData.InputCountsSelected` state its meaning. |
| InputData.FailsFromIffMalformed | chothia.c:334-344 | Reading the lines from `n` on fails exactly when one of them is a taken line without a residue word. |
| InputData.InputFailsIffMalformed | chothia.c:340-341 | ReadInputData gives up exactly when some taken line has no residue word. |
| InputData.CountsFrom | chothia.c:332-349 | A successful read from `n` on stores one residue per taken line. |
| InputData.InputCountsSelected | chothia.c:332-349 | A successful read stores exactly one residue per line starting with L or H and a digit. |
| InputData.LineRecordLabelled | chothia.c:334-347 | A stored residue has a label that starts with a chain letter and a digit, and a code that is not white space. |
| InputData.LabelledFrom | chothia.c:332-349 | Every residue stored from line `n` on is well labelled. |
| InputData.InputRecordsLabelled | chothia.c:332-349 | Every residue a successful read stores is well labelled. |
| InputData.StoreLine | chothia.c:334-347 | One line either fails (exactly when malformed) or stores its record after the records so far, leaving later slots untouched. |
| InputData.ReadInputData | chothia.c:324-350 | On failure 0 is returned. Otherwise the count is the number of residues read, and the array's first `count` slots hold them, in line order. |

## Left out

- File handling is not modelled: `OpenFile` and its `KABATDIR` search, `fgets`, failure to open a file, and the allocation failure check of `INIT`/`ALLOCNEXT`. Each file is given as its sequence of lines.
- `fgets` reads at most 159 characters at a time, so a longer line is split into several lines. Lines are taken whole here.
- The fixed-size buffers are not modelled: labels of 8 characters, `word[16]`/`word[40]`, `res[16]`, FindRes's `buff[16]`, `source[160]`, `LoopID[8]`, `class[8]`, `restype[24]`. Overflow and truncation of them are therefore not modelled either.
- `MAXSEQ`: `ReadInputData` writes past the 300-entry array when there are more taken lines. The model instead requires an array large enough for the taken lines.
- `MAXCHOTHRES`: the key arrays hold 80 entries. An entry with exactly 80 key positions gets its sentinel written one past the end of `resnum`: in the struct layout (chothia.c:97-98) that is the storage of `restype[0]`, so the entry's first key position then allows only `-` and `1` (and NUL). Also, the 81st key line is written one past the end before the read fails. Key lists are sequences here, so only the count bound (`Readers.ParsedDefsTerminated`, at most 81 entries) is stated.
- Output is not modelled: each `fprintf` becomes a value (`Report`, `LoopReport`, `Mismatch`), and the exact text and column layout of the messages are not modelled. The SOURCE text printed after a matched class is in the matched definition (`ClassDef.source`).
- `main`, `Usage` and `ParseCmdLine`, the command line, and the exit codes are not part of this model. That includes `main`'s treatment of a count of 0 as an input error.
- `GetWord` and `upstrncmp` come from bioplib, which is not part of this model. `GetWord` is modelled as skipping white space, taking the run of non-space characters, and returning the position of the next non-space character. `upstrncmp` is modelled as an upper-cased prefix comparison (`HasKeyword`).
- `TERMINATE` (removing the line terminator) is not modelled, since lines come without terminators.
- Canonicals.KeyMatches: when FindRes returns -1, the C code reads `Sequence[-1]`, which is undefined. The model counts that key position as a mismatch, and its explanation line shows no residue (`observed == None`).
- Canonicals.Allows: `strchr` also finds the terminating NUL, so a residue code of `'\0'` is allowed by every key position. The model keeps this.
- Strings are meant to be the characters before a terminating NUL, but nothing keeps `'\0'` out of the modelled lines. In the C code `GetWord` stops at a NUL, so a line such as `L24 \0` cannot store a NUL residue code; in the model `InputData.LineRecord` stores `'\0'` for it, which every key position then allows.
- InputData.ReadInputData: on a taken line without a residue word, the C code has already copied the line's label into `Sequence[count].resnum` before it returns 0. The model writes nothing on that path, and its contract says nothing about the array after a failed read.
- Readers.StepKind: a new definition's `source` is uninitialised memory in the C code. It is modelled as the empty string. A LOOP line whose length word holds no number leaves the length indeterminate. It is modelled as `None`, which equals no loop length.
- Text.Stem: `TERMALPHA(buff+1)` on an empty stored label reads past the end of the string. The model treats a label of length 0 or 1 as having no insertion code.
- Text.ScanInt: `int` overflow in `sscanf` is not modelled; values are unbounded integers.
- The `CHOTHIANUM` flag is read into the rule set, but nothing in the program uses it, so no numbering translation is modelled.
- The program walks key positions with no bound until the sentinel. The model bounds the walk by the length of the key list as well. Definitions read by `ReadChothiaData` always end with the sentinel (`Readers.ParsedDefsTerminated`).

=== FILE: canonicals.dfy ===
/** ReportACanonical: matching one loop against the list of canonical-class
    definitions, and the explanation given when no class matches. */
module Canonicals {
  import opened Wrappers
  import opened Text
  import opened Residues

  /** MAXCHOTHRES: the most key residues one class definition may hold. */
  const MaxChothRes: nat := 80

  /** The starting value of MinMismatch: a definition with this many
      mismatches or more never becomes the closest class. */
  const MismatchCeiling: nat := 10000

  /** The residue label that ends a definition's list of key positions. */
  const Sentinel: string := "-1"

  /** A key position and the one-letter codes allowed there. */
  datatype KeyPos = KeyPos(resnum: string, restype: string)

  /** One canonical-class definition. `length` is None when the length word
      of its LOOP line held no number (the field is then indeterminate);
      `keys` holds the key positions as read, ended by a Sentinel entry. */
  datatype ClassDef = ClassDef(loopId: string, className: string, length: Option<int>,
                               source: string, keys: seq<KeyPos>)

  /** strchr(types, c) != NULL: the terminating NUL of `types` is found too. */
  predicate Allows(types: string, c: char) { c == '\0' || c in types }

  /** The key positions a scan visits: those before the first Sentinel. */
  function ActiveKeys(keys: seq<KeyPos>): (r: seq<KeyPos>)
    ensures r <= keys
    ensures forall j :: 0 <= j < |r| ==> r[j].resnum != Sentinel
    ensures r == keys || keys[|r|].resnum == Sentinel
  {
    if keys == [] || keys[0].resnum == Sentinel then []
    else [keys[0]] + ActiveKeys(keys[1..])
  }

  /** A scan that stops at the first Sentinel or at the end stopped after
      exactly the active keys. */
  lemma ActiveKeysAt(keys: seq<KeyPos>, i: nat)
    requires i <= |keys|
    requires forall j :: 0 <= j < i ==> keys[j].resnum != Sentinel
    requires i == |keys| || keys[i].resnum == Sentinel
    ensures ActiveKeys(keys) == keys[..i]
  {
  }

  /** Where a scan from key position `i` stops: at the first Sentinel from
      `i` on, or at the end of the list. */
  function SentinelFrom(keys: seq<KeyPos>, i: nat): (n: nat)
    requires i <= |keys|
    ensures i <= n <= |keys|
    ensures n == |keys| || keys[n].resnum == Sentinel
    decreases |keys| - i
  {
    if i == |keys| || keys[i].resnum == Sentinel then i else SentinelFrom(keys, i + 1)
  }

  /** A scan from `i` passes no Sentinel before it stops. */
  lemma {:induction false} SentinelFromSkips(keys: seq<KeyPos>, i: nat)
    requires i <= |keys|
    ensures forall j :: i <= j < SentinelFrom(keys, i) ==> keys[j].resnum != Sentinel
    decreases |keys| - i
  {
    if i < |keys| && keys[i].resnum != Sentinel {
      SentinelFromSkips(keys, i + 1);
    }
  }

  /** A scan from the start stops right after the active keys. */
  lemma ScanStops(keys: seq<KeyPos>)
    ensures ActiveKeys(keys) == keys[..SentinelFrom(keys, 0)]
  {
    SentinelFromSkips(keys, 0);
    ActiveKeysAt(keys, SentinelFrom(keys, 0));
  }

  /** The residue FindRes reports at a key position, or None when FindRes
      returns -1. */
  function Observed(sequence: seq<Residue>, resnum: string): (o: Option<char>)
    ensures o.Some? ==> exists j :: 0 <= j < |sequence| && o.value == sequence[j].code
  {
    var i := Lookup(sequence, resnum);
    if i < 0 then None else Some(sequence[i].code)
  }

  /** The residue at key position `k` is one the position allows. */
  predicate KeyMatches(sequence: seq<Residue>, k: KeyPos)
  {
    var o := Observed(sequence, k.resnum);
    o.Some? && Allows(k.restype, o.value)
  }

  /** How many of `keys` the sequence does not satisfy. */
  function CountMismatches(sequence: seq<Residue>, keys: seq<KeyPos>): (n: nat)
    ensures n <= |keys|
  {
    if keys == [] then 0
    else (if KeyMatches(sequence, keys[0]) then 0 else 1) + CountMismatches(sequence, keys[1..])
  }

  /** No mismatch is counted exactly when every key position is satisfied. */
  lemma {:induction false} NoMismatchIffAllMatch(sequence: seq<Residue>, keys: seq<KeyPos>)
    ensures CountMismatches(sequence, keys) == 0 <==>
              forall j :: 0 <= j < |keys| ==> KeyMatches(sequence, keys[j])
  {
    if keys != [] {
      NoMismatchIffAllMatch(sequence, keys[1..]);
      assert forall j :: 1 <= j < |keys| ==> keys[j] == keys[1..][j - 1];
    }
  }

  /** Counting mismatches over two runs of keys adds up. */
  lemma {:induction false} CountMismatchesAppend(sequence: seq<Residue>, a: seq<KeyPos>, b: seq<KeyPos>)
    ensures CountMismatches(sequence, a + b) == CountMismatches(sequence, a) + CountMismatches(sequence, b)
  {
    if a != [] {
      assert (a + b)[0] == a[0];
      assert (a + b)[1..] == a[1..] + b;
      CountMismatchesAppend(sequence, a[1..], b);
    } else {
      assert a + b == b;
    }
  }

  /** NMismatch for a definition: its active keys the sequence violates. */
  function Mismatches(sequence: seq<Residue>, d: ClassDef): nat
  {
    CountMismatches(sequence, ActiveKeys(d.keys))
  }

  /** One line of the verbose explanation: the key position, what FindRes
      found there (None when nothing was found) and what it allows. */
  datatype Mismatch = Mismatch(resnum: string, observed: Option<char>, allows: string)

  /** The explanation line for key position `k`. */
  function Describe(sequence: seq<Residue>, k: KeyPos): Mismatch
  {
    Mismatch(k.resnum, Observed(sequence, k.resnum), k.restype)
  }

  /** The explanation for `keys`: the keys the sequence violates, described
      in key order, one line per mismatch. */
  function Explanation(sequence: seq<Residue>, keys: seq<KeyPos>): (r: seq<Mismatch>)
    ensures |r| == CountMismatches(sequence, keys)
  {
    if keys == [] then []
    else (if KeyMatches(sequence, keys[0]) then [] else [Describe(sequence, keys[0])])
         + Explanation(sequence, keys[1..])
  }

  /** The explanation lists exactly the violated key positions: every line
      describes a position whose residue is missing or not allowed, with what
      FindRes found there, and every such position has its line. */
  lemma {:induction false} ExplanationExact(sequence: seq<Residue>, keys: seq<KeyPos>)
    ensures forall m :: m in Explanation(sequence, keys) ==>
              m.observed == Observed(sequence, m.resnum)
              && !KeyMatches(sequence, KeyPos(m.resnum, m.allows))
    ensures forall j :: 0 <= j < |keys| && !KeyMatches(sequence, keys[j]) ==>
              Describe(sequence, keys[j]) in Explanation(sequence, keys)
  {
    if keys != [] {
      ExplanationExact(sequence, keys[1..]);
      assert forall j :: 1 <= j < |keys| ==> keys[j] == keys[1..][j - 1];
    }
  }

  /** The explanation keeps key order: that of two runs of keys is the
      explanation of the first followed by that of the second. */
  lemma {:induction false} ExplanationAppend(sequence: seq<Residue>, a: seq<KeyPos>, b: seq<KeyPos>)
    ensures Explanation(sequence, a + b) == Explanation(sequence, a) + Explanation(sequence, b)
  {
    if a != [] {
      assert (a + b)[0] == a[0];
      assert (a + b)[1..] == a[1..] + b;
      ExplanationAppend(sequence, a[1..], b);
    } else {
      assert a + b == b;
    }
  }

  /** Taking one more key position into the count adds one exactly when
      its residue is missing or not allowed. */
  lemma CountStep(sequence: seq<Residue>, keys: seq<KeyPos>, i: nat)
    requires i < |keys|
    ensures CountMismatches(sequence, keys[..i + 1]) ==
              CountMismatches(sequence, keys[..i]) + (if KeyMatches(sequence, keys[i]) then 0 else 1)
  {
    assert [keys[i]][1..] == [];
    CountMismatchesAppend(sequence, keys[..i], [keys[i]]);
    assert keys[..i + 1] == keys[..i] + [keys[i]];
  }

  /** Taking one more key position into the explanation adds its line
      exactly when its residue is missing or not allowed. */
  lemma ExplanationStep(sequence: seq<Residue>, keys: seq<KeyPos>, i: nat)
    requires i < |keys|
    ensures Explanation(sequence, keys[..i + 1]) ==
              Explanation(sequence, keys[..i]) +
              (if KeyMatches(sequence, keys[i]) then [] else [Describe(sequence, keys[i])])
  {
    assert [keys[i]][1..] == [];
    ExplanationAppend(sequence, keys[..i], [keys[i]]);
    assert keys[..i + 1] == keys[..i] + [keys[i]];
  }

  /** The test ReportACanonical makes of key position `i`: FindRes looks
      the position up, and the position fails when the residue found there
      is not one it allows; a failure adds one to the count. */
  method CheckKey(sequence: array<Residue>, nres: int, keys: seq<KeyPos>, i: nat) returns (bad: bool)
    requires 0 <= nres <= sequence.Length && i < |keys|
    ensures bad <==> !KeyMatches(sequence[..nres], keys[i])
    ensures CountMismatches(sequence[..nres], keys[..i + 1]) ==
              CountMismatches(sequence[..nres], keys[..i]) + (if bad then 1 else 0)
  {
    var k := keys[i];
    var res := FindRes(sequence, nres, k.resnum);
    bad := res < 0 || !Allows(k.restype, sequence[res].code);
    CountStep(sequence[..nres], keys, i);
  }

  /** Key position `i` of the verbose explanation: when the position fails,
      its line, with the residue FindRes found there, follows the lines of
      the positions before it. */
  method ExplainKey(sequence: array<Residue>, nres: int, keys: seq<KeyPos>, i: nat) returns (line: seq<Mismatch>)
    requires 0 <= nres <= sequence.Length && i < |keys|
    ensures line == if KeyMatches(sequence[..nres], keys[i]) then [] else [Describe(sequence[..nres], keys[i])]
    ensures Explanation(sequence[..nres], keys[..i + 1]) == Explanation(sequence[..nres], keys[..i]) + line
  {
    var k := keys[i];
    var res := FindRes(sequence, nres, k.resnum);
    line := [];
    if res < 0 || !Allows(k.restype, sequence[res].code) {
      var observed := if res < 0 then None else Some(sequence[res].code);
      line := [Mismatch(k.resnum, observed, k.restype)];
    }
    ExplanationStep(sequence[..nres], keys, i);
  }

  /** A definition is a candidate when both its loop name and its length are
      those of the loop being classified. */
  predicate Applies(d: ClassDef, loopName: string, loopLen: int)
  {
    d.loopId == loopName && d.length == Some(loopLen)
  }

  /** The outcome of the scan: the class that matched, or the closest
      candidate (None when no definition was closer than MismatchCeiling). */
  datatype Decision = Matched(index: nat) | Unmatched(best: Option<nat>)

  /** The scan over the definitions from `p` on, with the closest candidate
      so far `best` and its mismatch count `minMismatch`. */
  function ScanFrom(sequence: seq<Residue>, rules: seq<ClassDef>, loopName: string, loopLen: int,
                    p: nat, best: Option<nat>, minMismatch: int): (d: Decision)
    requires p <= |rules|
    requires best.Some? ==> best.value < |rules|
    ensures d.Matched? ==> p <= d.index < |rules|
    ensures d.Unmatched? && d.best.Some? ==> d.best.value < |rules|
    decreases |rules| - p
  {
    if p == |rules| then Unmatched(best)
    else if Applies(rules[p], loopName, loopLen) && Mismatches(sequence, rules[p]) == 0 then Matched(p)
    else if Applies(rules[p], loopName, loopLen) && Mismatches(sequence, rules[p]) < minMismatch then
      ScanFrom(sequence, rules, loopName, loopLen, p + 1, Some(p), Mismatches(sequence, rules[p]))
    else ScanFrom(sequence, rules, loopName, loopLen, p + 1, best, minMismatch)
  }

  /** The decision ReportACanonical reaches for one loop. */
  function Classify(sequence: seq<Residue>, rules: seq<ClassDef>, loopName: string, loopLen: int): (d: Decision)
    ensures d.Matched? ==> d.index < |rules| && Applies(rules[d.index], loopName, loopLen)
    ensures d.Unmatched? && d.best.Some? ==> d.best.value < |rules|
  {
    ScanFromSound(sequence, rules, loopName, loopLen, 0, None, MismatchCeiling);
    ScanFrom(sequence, rules, loopName, loopLen, 0, None, MismatchCeiling)
  }

  /** Definition `k` matches the loop exactly. */
  predicate IsExact(sequence: seq<Residue>, rules: seq<ClassDef>, loopName: string, loopLen: int, k: int)
  {
    0 <= k < |rules| && Applies(rules[k], loopName, loopLen) && Mismatches(sequence, rules[k]) == 0
  }

  /** Definition `k` is the closest class: a candidate below the ceiling with
      the fewest mismatches, and the first such in list order. */
  predicate IsClosest(sequence: seq<Residue>, rules: seq<ClassDef>, loopName: string, loopLen: int, k: int)
  {
    && 0 <= k < |rules|
    && Applies(rules[k], loopName, loopLen)
    && Mismatches(sequence, rules[k]) < MismatchCeiling
    && (forall j :: 0 <= j < |rules| && Applies(rules[j], loopName, loopLen) ==>
          Mismatches(sequence, rules[j]) >= Mismatches(sequence, rules[k]))
    && (forall j :: 0 <= j < k && Applies(rules[j], loopName, loopLen) ==>
          Mismatches(sequence, rules[j]) > Mismatches(sequence, rules[k]))
  }

  /** What holds of the scan after the definitions before `p`. */
  predicate ScanInvariant(sequence: seq<Residue>, rules: seq<ClassDef>, loopName: string, loopLen: int,
                          p: nat, best: Option<nat>, minMismatch: int)
  {
    && p <= |rules|
    && (forall j :: 0 <= j < p ==> !IsExact(sequence, rules, loopName, loopLen, j))
    && (best.None? ==>
          && minMismatch == MismatchCeiling
          && forall j :: 0 <= j < p && Applies(rules[j], loopName, loopLen) ==>
               Mismatches(sequence, rules[j]) >= MismatchCeiling)
    && (best.Some? ==>
          && best.value < p
          && Applies(rules[best.value], loopName, loopLen)
          && Mismatches(sequence, rules[best.value]) == minMismatch < MismatchCeiling
          && (forall j :: 0 <= j < p && Applies(rules[j], loopName, loopLen) ==>
                Mismatches(sequence, rules[j]) >= minMismatch)
          && (forall j :: 0 <= j < best.value && Applies(rules[j], loopName, loopLen) ==>
                Mismatches(sequence, rules[j]) > minMismatch))
  }

  /** A decision is sound when a match is the first exact match, and
      otherwise nothing matches exactly and the closest class, if any, is
      the first with the fewest mismatches, below the ceiling. */
  predicate DecisionSound(sequence: seq<Residue>, rules: seq<ClassDef>, loopName: string, loopLen: int, d: Decision)
  {
    && (d.Matched? ==>
          && IsExact(sequence, rules, loopName, loopLen, d.index)
          && forall j :: 0 <= j < d.index ==> !IsExact(sequence, rules, loopName, loopLen, j))
    && (d.Unmatched? ==> forall j :: 0 <= j < |rules| ==> !IsExact(sequence, rules, loopName, loopLen, j))
    && (d.Unmatched? && d.best.Some? ==> IsClosest(sequence, rules, loopName, loopLen, d.best.value))
    && (d == Unmatched(None) ==>
          forall j :: 0 <= j < |rules| && Applies(rules[j], loopName, loopLen) ==>
            Mismatches(sequence, rules[j]) >= MismatchCeiling)
  }

  /** One step of the scan keeps its invariant. */
  lemma ScanStep(sequence: seq<Residue>, rules: seq<ClassDef>, loopName: string, loopLen: int,
                 p: nat, best: Option<nat>, minMismatch: int)
    requires ScanInvariant(sequence, rules, loopName, loopLen, p, best, minMismatch)
    requires p < |rules| && !IsExact(sequence, rules, loopName, loopLen, p)
    ensures var n := Mismatches(sequence, rules[p]);
      if Applies(rules[p], loopName, loopLen) && n < minMismatch
      then ScanInvariant(sequence, rules, loopName, loopLen, p + 1, Some(p), n)
      else ScanInvariant(sequence, rules, loopName, loopLen, p + 1, best, minMismatch)
  {
  }

  /** From any state the invariant describes, the scan reaches a sound
      decision. */
  lemma {:induction false} ScanFromSound(sequence: seq<Residue>, rules: seq<ClassDef>, loopName: string, loopLen: int,
                                         p: nat, best: Option<nat>, minMismatch: int)
    requires ScanInvariant(sequence, rules, loopName, loopLen, p, best, minMismatch)
    ensures DecisionSound(sequence, rules, loopName, loopLen,
                          ScanFrom(sequence, rules, loopName, loopLen, p, best, minMismatch))
    decreases |rules| - p
  {
    if p < |rules| {
      var n := Mismatches(sequence, rules[p]);
      if !IsExact(sequence, rules, loopName, loopLen, p) {
        ScanStep(sequence, rules, loopName, loopLen, p, best, minMismatch);
        if Applies(rules[p], loopName, loopLen) && n < minMismatch {
          ScanFromSound(sequence, rules, loopName, loopLen, p + 1, Some(p), n);
        } else {
          ScanFromSound(sequence, rules, loopName, loopLen, p + 1, best, minMismatch);
        }
      }
    }
  }

  /** The scan's decision, stated without the scan: a match is the first
      exact match in list order; without one, the closest class is the first
      definition with the fewest mismatches; there is none exactly when no
      candidate has fewer mismatches than the ceiling. */
  lemma ClassifyCorrect(sequence: seq<Residue>, rules: seq<ClassDef>, loopName: string, loopLen: int)
    ensures var d := Classify(sequence, rules, loopName, loopLen);
      && (d.Matched? ==>
            && IsExact(sequence, rules, loopName, loopLen, d.index)
            && forall j :: 0 <= j < d.index ==> !IsExact(sequence, rules, loopName, loopLen, j))
      && (d.Unmatched? ==> forall j :: 0 <= j < |rules| ==> !IsExact(sequence, rules, loopName, loopLen, j))
      && (d.Unmatched? && d.best.Some? ==> IsClosest(sequence, rules, loopName, loopLen, d.best.value))
      && (d == Unmatched(None) <==>
            forall j :: 0 <= j < |rules| && Applies(rules[j], loopName, loopLen) ==>
              Mismatches(sequence, rules[j]) >= MismatchCeiling)
  {
    var d := Classify(sequence, rules, loopName, loopLen);
    ScanFromSound(sequence, rules, loopName, loopLen, 0, None, MismatchCeiling);
    assert DecisionSound(sequence, rules, loopName, loopLen, d);
    if d.Unmatched? && d.best.Some? {
      assert IsClosest(sequence, rules, loopName, loopLen, d.best.value);
    }
  }

  /** With fewer key positions per definition than the ceiling (as the rule
      reader guarantees), no closest class is reported exactly when no
      definition has both the loop's name and its length. */
  lemma NoCandidateIffNoClosest(sequence: seq<Residue>, rules: seq<ClassDef>, loopName: string, loopLen: int)
    requires forall j :: 0 <= j < |rules| ==> |ActiveKeys(rules[j].keys)| < MismatchCeiling
    ensures Classify(sequence, rules, loopName, loopLen) == Unmatched(None) <==>
              forall j :: 0 <= j < |rules| ==> !Applies(rules[j], loopName, loopLen)
  {
    ClassifyCorrect(sequence, rules, loopName, loopLen);
  }

  /** What ReportACanonical reports for one loop: the decision, and, when
      verbose output was asked for and a closest class exists, the
      explanation of that class's mismatches. */
  datatype Report = Report(decision: Decision, explanation: seq<Mismatch>)

  /** The report ReportACanonical produces. */
  function CanonicalReport(sequence: seq<Residue>, rules: seq<ClassDef>, loopName: string, loopLen: int,
                           verbose: bool): (r: Report)
    ensures r.decision == Classify(sequence, rules, loopName, loopLen)
    ensures r.decision.Matched? || !verbose ==> r.explanation == []
    ensures r.decision.Unmatched? && r.decision.best.Some? && verbose ==>
              && r.explanation == Explanation(sequence, ActiveKeys(rules[r.decision.best.value].keys))
              && |r.explanation| == Mismatches(sequence, rules[r.decision.best.value]) > 0
  {
    var d := Classify(sequence, rules, loopName, loopLen);
    ClassifyCorrect(sequence, rules, loopName, loopLen);
    assert d.Unmatched? && d.best.Some? ==> !IsExact(sequence, rules, loopName, loopLen, d.best.value);
    Report(d, if verbose && d.Unmatched? && d.best.Some?
              then Explanation(sequence, ActiveKeys(rules[d.best.value].keys)) else [])
  }

  /** The verbose explanation loop of ReportACanonical: FindRes is asked
      again for each key position of the closest class, and the positions
      whose residue is not allowed are listed. */
  method ExplainMismatches(sequence: array<Residue>, nres: int, d: ClassDef) returns (why: seq<Mismatch>)
    requires 0 <= nres <= sequence.Length
    ensures why == Explanation(sequence[..nres], ActiveKeys(d.keys))
  {
    ghost var s := sequence[..nres];
    why := [];
    var i := 0;
    while i < |d.keys| && d.keys[i].resnum != Sentinel
      invariant 0 <= i <= |d.keys|
      invariant SentinelFrom(d.keys, i) == SentinelFrom(d.keys, 0)
      invariant why == Explanation(s, d.keys[..i])
    {
      var line := ExplainKey(sequence, nres, d.keys, i);
      why := why + line;
      i := i + 1;
    }
    ScanStops(d.keys);
  }

  /** The check ReportACanonical makes of one candidate definition: OK is
      assumed, then every key position up to the Sentinel is looked up, and
      each residue the position does not allow clears OK and counts one
      mismatch. */
  method CheckKeys(sequence: array<Residue>, nres: int, d: ClassDef) returns (ok: bool, nMismatch: nat)
    requires 0 <= nres <= sequence.Length
    ensures nMismatch == Mismatches(sequence[..nres], d)
    ensures ok <==> nMismatch == 0
  {
    ghost var s := sequence[..nres];
    ok := true;
    nMismatch := 0;
    var i := 0;
    while i < |d.keys| && d.keys[i].resnum != Sentinel
      invariant 0 <= i <= |d.keys|
      invariant SentinelFrom(d.keys, i) == SentinelFrom(d.keys, 0)
      invariant nMismatch == CountMismatches(s, d.keys[..i])
      invariant ok == (nMismatch == 0)
    {
      var bad := CheckKey(sequence, nres, d.keys, i);
      if bad {
        ok := false;
        nMismatch := nMismatch + 1;
      }
      i := i + 1;
    }
    ScanStops(d.keys);
  }

  /** ReportACanonical: the definitions are walked in list order; the walk
      stops at the first candidate with no mismatch, and otherwise keeps the
      first candidate with the fewest mismatches as the closest class, whose
      mismatches are then listed when verbose output was asked for. */
  method ReportACanonical(loopName: string, loopLen: int, sequence: array<Residue>, nres: int,
                          rules: seq<ClassDef>, verbose: bool) returns (r: Report)
    requires 0 <= nres <= sequence.Length
    ensures r == CanonicalReport(sequence[..nres], rules, loopName, loopLen, verbose)
  {
    ghost var s := sequence[..nres];
    var best: Option<nat> := None;
    var minMismatch := MismatchCeiling;
    var ok := false;
    var p := 0;
    while p < |rules|
      invariant 0 <= p <= |rules|
      invariant !ok
      invariant best.Some? ==> best.value < p
      invariant ScanFrom(s, rules, loopName, loopLen, p, best, minMismatch)
                == Classify(s, rules, loopName, loopLen)
    {
      if rules[p].loopId == loopName && rules[p].length == Some(loopLen) {
        var nMismatch;
        ok, nMismatch := CheckKeys(sequence, nres, rules[p]);
        if ok {
          assert Classify(s, rules, loopName, loopLen) == Matched(p);
          break;
        }
        if nMismatch < minMismatch {
          minMismatch := nMismatch;
          best := Some(p);
        }
      }
      p := p + 1;
    }

    var why: seq<Mismatch> := [];
    if ok {
      r := Report(Matched(p), why);
    } else {
      if verbose && best.Some? {
        why := ExplainMismatches(sequence, nres, rules[best.value]);
      }
      r := Report(Unmatched(best), why);
    }
  }
}

=== FILE: inputdata.dfy ===
/** ReadInputData: the line-driven reader of the numbered antibody sequence.
    The file is given as its lines, each without its line terminator. */
module InputData {
  import opened Wrappers
  import opened Text
  import opened Residues

  /** ReadInputData takes a line only when it starts with L or H followed by
      a digit. */
  predicate Selected(line: string)
  {
    |line| >= 2 && (line[0] == 'L' || line[0] == 'H') && IsDigit(line[1])
  }

  /** How many of the lines from `n` on ReadInputData takes. */
  function SelectedFrom(lines: seq<string>, n: nat): nat
    requires n <= |lines|
    decreases |lines| - n
  {
    if n == |lines| then 0
    else (if Selected(lines[n]) then 1 else 0) + SelectedFrom(lines, n + 1)
  }

  /** How many lines ReadInputData takes (its MAXSEQ bound applies to this). */
  function SelectedCount(lines: seq<string>): nat
  {
    SelectedFrom(lines, 0)
  }

  /** The residue label of a taken line: its first word. */
  function LabelOf(line: string): string { Word(line, WordAt(line, 0)) }

  /** The residue word of a taken line: its second word. */
  function ResidueWord(line: string): string { Word(line, WordAt(line, WordAt(line, 0).next)) }

  /** A taken line without a residue word, which makes ReadInputData give up. */
  predicate Malformed(line: string)
  {
    Selected(line) && ResidueWord(line) == []
  }

  /** What one line adds to the sequence: the label and the first character
      of the residue word of a taken line, nothing for any other line. */
  function LineRecord(line: string): seq<Residue>
  {
    if Selected(line) && ResidueWord(line) != [] then [Residue(LabelOf(line), ResidueWord(line)[0])]
    else []
  }

  /** A taken line whose first word is `name`, followed by one space and
      the word `w`, stores the label `name` and the first character of `w`. */
  lemma LineRecordAt(line: string, name: string, w: string)
    requires Selected(line)
    requires forall j :: 0 <= j < |name| ==> !IsSpace(name[j])
    requires w != [] && forall j :: 0 <= j < |w| ==> !IsSpace(w[j])
    requires |name| + 1 + |w| <= |line| && line[..|name|] == name && line[|name|] == ' '
    requires line[|name| + 1..|name| + 1 + |w|] == w
    requires |name| + 1 + |w| == |line| || IsSpace(line[|name| + 1 + |w|])
    ensures LineRecord(line) == [Residue(name, w[0])]
  {
    assert line[0..|name|] == name;
    WordAtSlice(line, 0, name);
    WordAtSlice(line, |name| + 1, w);
  }

  /** A taken line `name residues...`: the label is its first word and
      the stored code is the first character of its second word. */
  lemma LineRecordFields(name: string, w: string, tail: string)
    requires |name| >= 2 && (name[0] == 'L' || name[0] == 'H') && IsDigit(name[1])
    requires forall j :: 0 <= j < |name| ==> !IsSpace(name[j])
    requires w != [] && forall j :: 0 <= j < |w| ==> !IsSpace(w[j])
    requires tail == [] || IsSpace(tail[0])
    ensures LineRecord(name + " " + w + tail) == [Residue(name, w[0])]
  {
    var line := name + " " + w + tail;
    var a := |name|;
    assert line[0] == name[0] && line[1] == name[1];
    assert line[..a] == name && line[a] == ' ';
    assert line[a + 1..a + 1 + |w|] == w;
    if tail != [] {
      assert line[a + 1 + |w|] == tail[0];
    }
    LineRecordAt(line, name, w);
  }

  /** `prefix` put in front of a read that may have failed. */
  function Prefixed(prefix: seq<Residue>, o: Option<seq<Residue>>): Option<seq<Residue>>
  {
    match o
    case None => None
    case Some(rest) => Some(prefix + rest)
  }

  /** The residues stored for the lines from `n` on; None when one of them
      is malformed. */
  function RecordsFrom(lines: seq<string>, n: nat): Option<seq<Residue>>
    requires n <= |lines|
    decreases |lines| - n
  {
    if n == |lines| then Some([])
    else if Malformed(lines[n]) then None
    else Prefixed(LineRecord(lines[n]), RecordsFrom(lines, n + 1))
  }

  /** The residues ReadInputData stores, in line order; None when a taken
      line has no residue word. */
  function InputRecords(lines: seq<string>): Option<seq<Residue>>
  {
    RecordsFrom(lines, 0)
  }

  /** Some line from `n` on is malformed exactly when line `n` is or some
      later line is. */
  lemma MalformedStep(lines: seq<string>, n: nat)
    requires n < |lines|
    ensures (exists i :: n <= i < |lines| && Malformed(lines[i])) <==>
              Malformed(lines[n]) || exists i :: n + 1 <= i < |lines| && Malformed(lines[i])
  {
  }

  lemma {:induction false} FailsFromIffMalformed(lines: seq<string>, n: nat)
    requires n <= |lines|
    ensures RecordsFrom(lines, n).None? <==> exists i :: n <= i < |lines| && Malformed(lines[i])
    decreases |lines| - n
  {
    if n < |lines| {
      MalformedStep(lines, n);
      FailsFromIffMalformed(lines, n + 1);
    }
  }

  /** Reading fails exactly when some taken line has no residue word. */
  lemma InputFailsIffMalformed(lines: seq<string>)
    ensures InputRecords(lines).None? <==> exists i :: 0 <= i < |lines| && Malformed(lines[i])
  {
    FailsFromIffMalformed(lines, 0);
  }

  lemma {:induction false} CountsFrom(lines: seq<string>, n: nat)
    requires n <= |lines|
    ensures RecordsFrom(lines, n).Some? ==> |RecordsFrom(lines, n).value| == SelectedFrom(lines, n)
    decreases |lines| - n
  {
    if n < |lines| {
      CountsFrom(lines, n + 1);
    }
  }

  /** A successful read stores one residue per taken line. */
  lemma InputCountsSelected(lines: seq<string>)
    ensures InputRecords(lines).Some? ==> |InputRecords(lines).value| == SelectedCount(lines)
  {
    CountsFrom(lines, 0);
  }

  /** A stored label is a chain letter and a digit followed by the rest of
      its number; a stored residue code is not white space. */
  predicate WellLabelled(r: Residue)
  {
    |r.resnum| >= 2 && (r.resnum[0] == 'L' || r.resnum[0] == 'H') && IsDigit(r.resnum[1])
    && !IsSpace(r.code)
  }

  lemma LineRecordLabelled(line: string)
    ensures forall i :: 0 <= i < |LineRecord(line)| ==> WellLabelled(LineRecord(line)[i])
  {
  }

  lemma {:induction false} LabelledFrom(lines: seq<string>, n: nat)
    requires n <= |lines|
    ensures RecordsFrom(lines, n).Some? ==>
              forall i :: 0 <= i < |RecordsFrom(lines, n).value| ==> WellLabelled(RecordsFrom(lines, n).value[i])
    decreases |lines| - n
  {
    if n < |lines| && !Malformed(lines[n]) {
      LabelledFrom(lines, n + 1);
      LineRecordLabelled(lines[n]);
    }
  }

  /** Every residue a successful read stores is well labelled. */
  lemma InputRecordsLabelled(lines: seq<string>)
    ensures InputRecords(lines).Some? ==>
              forall i :: 0 <= i < |InputRecords(lines).value| ==> WellLabelled(InputRecords(lines).value[i])
  {
    LabelledFrom(lines, 0);
  }

  lemma PrefixedEmpty(o: Option<seq<Residue>>)
    ensures Prefixed([], o) == o
  {
    if o.Some? {
      assert [] + o.value == o.value;
    }
  }

  lemma PrefixedAppend(prefix: seq<Residue>, more: seq<Residue>, o: Option<seq<Residue>>)
    ensures Prefixed(prefix, Prefixed(more, o)) == Prefixed(prefix + more, o)
  {
    if o.Some? {
      assert prefix + (more + o.value) == (prefix + more) + o.value;
    }
  }

  lemma PrefixOfArray(a: seq<Residue>, stored: seq<Residue>)
    requires |stored| <= |a| && forall i :: 0 <= i < |stored| ==> a[i] == stored[i]
    ensures a[..|stored|] == stored
  {
  }

  /** The body of ReadInputData's loop: one line, stored in slot `count`
      when it is taken; `failed` when it is taken but has no residue word. */
  method StoreLine(line: string, sequence: array<Residue>, count: nat, ghost stored: seq<Residue>)
      returns (failed: bool, next: nat)
    requires count == |stored| && count + (if Selected(line) then 1 else 0) <= sequence.Length
    requires forall i :: 0 <= i < count ==> sequence[i] == stored[i]
    modifies sequence
    ensures failed == Malformed(line)
    ensures !failed ==> next == count + |LineRecord(line)| && next <= sequence.Length
    ensures !failed ==> forall i :: 0 <= i < next ==> sequence[i] == (stored + LineRecord(line))[i]
    ensures forall i :: count < i < sequence.Length ==> sequence[i] == old(sequence[i])
    ensures !failed ==> forall i :: next <= i < sequence.Length ==> sequence[i] == old(sequence[i])
  {
    if !Selected(line) {
      assert stored + LineRecord(line) == stored;
      return false, count;
    }
    var word := ResidueWord(line);
    if |word| == 0 {
      return true, count;
    }
    var r := Residue(LabelOf(line), word[0]);
    ghost var more := stored + [r];
    assert stored + LineRecord(line) == more;
    sequence[count] := r;
    assert forall i :: 0 <= i <= count ==> sequence[i] == more[i];
    return false, count + 1;
  }

  /** ReadInputData: the taken lines fill `sequence` in order with their
      label and the first character of their residue word; the result is
      the number stored, or 0 as soon as a taken line has no residue word.
      The caller's array must hold every taken line. */
  method ReadInputData(lines: seq<string>, sequence: array<Residue>) returns (count: int)
    requires SelectedCount(lines) <= sequence.Length
    modifies sequence
    ensures 0 <= count <= sequence.Length
    ensures InputRecords(lines).None? ==> count == 0
    ensures InputRecords(lines).Some? ==>
              count == |InputRecords(lines).value| && sequence[..count] == InputRecords(lines).value
    ensures InputRecords(lines).Some? ==>
              forall i :: count <= i < sequence.Length ==> sequence[i] == old(sequence[i])
  {
    count := 0;
    var n := 0;
    ghost var stored: seq<Residue> := [];
    PrefixedEmpty(InputRecords(lines));
    while n < |lines|
      invariant 0 <= n <= |lines|
      invariant count == |stored| && count + SelectedFrom(lines, n) <= sequence.Length
      invariant forall i :: 0 <= i < count ==> sequence[i] == stored[i]
      invariant InputRecords(lines) == Prefixed(stored, RecordsFrom(lines, n))
      invariant forall i :: count <= i < sequence.Length ==> sequence[i] == old(sequence[i])
    {
      var failed;
      failed, count := StoreLine(lines[n], sequence, count, stored);
      if failed {
        return 0;
      }
      PrefixedAppend(stored, LineRecord(lines[n]), RecordsFrom(lines, n + 1));
      stored := stored + LineRecord(lines[n]);
      n := n + 1;
    }
    PrefixOfArray(sequence[..], stored);
  }
}

=== FILE: loops.dfy ===
/** ReportCanonicals: finding each CDR loop's boundaries and length, and
    classifying the loops whose boundaries are present. */
module Loops {
  import opened Wrappers
  import opened Residues
  import opened Canonicals

  /** NCDR: how many entries of the boundary table are processed. */
  const NCDR: nat := 5

  /** One CDR loop: its name and the labels of its first and last residues. */
  datatype LoopDef = LoopDef(name: string, start: string, stop: string)

  /** The fixed boundary table. Its sixth entry, H3, lies beyond NCDR and is
      therefore never classified. */
  const LoopTable: seq<LoopDef> := [
    LoopDef("L1", "L24", "L34"),
    LoopDef("L2", "L50", "L56"),
    LoopDef("L3", "L89", "L97"),
    LoopDef("H1", "H26", "H35B"),
    LoopDef("H2", "H50", "H58"),
    LoopDef("H3", "H95", "H102")
  ]

  /** What is reported for one loop: a boundary residue that could not be
      found (the first one missing), or the loop's length and the class
      report for it. */
  datatype LoopReport =
    | MissingResidues(name: string, absent: string)
    | Classified(name: string, length: int, report: Report)

  /** The report for loop `def`: its start is looked up first, then its
      stop; when both are present the length is 1 + stop - start, with no
      check that the stop comes after the start. */
  function ReportLoop(sequence: seq<Residue>, rules: seq<ClassDef>, def: LoopDef, verbose: bool): LoopReport
  {
    var start := Lookup(sequence, def.start);
    if start == -1 then MissingResidues(def.name, def.start)
    else
      var stop := Lookup(sequence, def.stop);
      if stop == -1 then MissingResidues(def.name, def.stop)
      else
        var len := 1 + stop - start;
        Classified(def.name, len, CanonicalReport(sequence, rules, def.name, len, verbose))
  }

  /** A loop is skipped exactly when one of its boundary residues is absent;
      otherwise its length spans the two boundary residues, and a class it
      is assigned has that loop name and that length. */
  lemma ReportLoopSpec(sequence: seq<Residue>, rules: seq<ClassDef>, def: LoopDef, verbose: bool)
    ensures var r := ReportLoop(sequence, rules, def, verbose);
      && r.name == def.name
      && (r.MissingResidues? <==> Lookup(sequence, def.start) < 0 || Lookup(sequence, def.stop) < 0)
      && (r.MissingResidues? ==> (r.absent == def.start <==> Lookup(sequence, def.start) < 0))
      && (r.Classified? ==>
            && r.length == 1 + Lookup(sequence, def.stop) - Lookup(sequence, def.start)
            && r.length <= |sequence|
            && (r.report.decision.Matched? ==>
                  && rules[r.report.decision.index].loopId == def.name
                  && rules[r.report.decision.index].length == Some(r.length)))
  {
  }

  /** The length is not checked: when the stop residue is found before the
      start residue the loop is still classified, with a length of zero or
      less; only a definition whose LOOP line gives such a length (as
      `LOOP L1 x 0` does) can match it. */
  lemma ReversedBoundsStillClassified(sequence: seq<Residue>, rules: seq<ClassDef>, def: LoopDef, verbose: bool)
    requires 0 <= Lookup(sequence, def.stop) < Lookup(sequence, def.start)
    ensures ReportLoop(sequence, rules, def, verbose).Classified?
    ensures ReportLoop(sequence, rules, def, verbose).length <= 0
  {
  }

  /** The body of ReportCanonicals' loop: one entry of the boundary table. */
  method ReportOne(sequence: array<Residue>, nres: int, ghost s: seq<Residue>, rules: seq<ClassDef>, def: LoopDef, verbose: bool)
    returns (r: LoopReport)
    requires 0 <= nres <= sequence.Length && s == sequence[..nres]
    ensures r == ReportLoop(s, rules, def, verbose)
  {
    var start := FindRes(sequence, nres, def.start);
    if start == -1 {
      return MissingResidues(def.name, def.start);
    }
    var stop := FindRes(sequence, nres, def.stop);
    if stop == -1 {
      return MissingResidues(def.name, def.stop);
    }
    var len := 1 + stop - start;
    var report := ReportACanonical(def.name, len, sequence, nres, rules, verbose);
    return Classified(def.name, len, report);
  }

  /** The reports for the first `n` entries of the boundary table, in
      order. */
  function Reports(sequence: seq<Residue>, rules: seq<ClassDef>, verbose: bool, n: nat): seq<LoopReport>
    requires n <= |LoopTable|
  {
    if n == 0 then [] else Reports(sequence, rules, verbose, n - 1) + [ReportLoop(sequence, rules, LoopTable[n - 1], verbose)]
  }

  /** Entry k of Reports is the report for table entry k. */
  lemma {:induction false} ReportsAt(sequence: seq<Residue>, rules: seq<ClassDef>, verbose: bool, n: nat)
    requires n <= |LoopTable|
    ensures |Reports(sequence, rules, verbose, n)| == n
    ensures forall k :: 0 <= k < n ==>
              Reports(sequence, rules, verbose, n)[k] == ReportLoop(sequence, rules, LoopTable[k], verbose)
  {
    if n > 0 {
      ReportsAt(sequence, rules, verbose, n - 1);
    }
  }

  /** The table names H3, but only the entries before NCDR are processed,
      and none of them is H3: CDR-H3 is never classified. */
  lemma H3NeverProcessed()
    ensures |LoopTable| > NCDR && LoopTable[NCDR].name == "H3"
    ensures forall k :: 0 <= k < NCDR ==> LoopTable[k].name != "H3"
  {
  }

  /** No report that ReportCanonicals makes is for CDR-H3. */
  lemma NoReportForH3(sequence: seq<Residue>, rules: seq<ClassDef>, verbose: bool)
    ensures forall k :: 0 <= k < |Reports(sequence, rules, verbose, NCDR)| ==>
              Reports(sequence, rules, verbose, NCDR)[k].name != "H3"
  {
    ReportsAt(sequence, rules, verbose, NCDR);
    H3NeverProcessed();
    forall k | 0 <= k < NCDR
      ensures Reports(sequence, rules, verbose, NCDR)[k].name != "H3"
    {
      ReportLoopSpec(sequence, rules, LoopTable[k], verbose);
    }
  }

  /** ReportCanonicals: the first NCDR entries of the boundary table, in
      order. Each loop whose start or stop residue FindRes cannot find is
      reported as missing and skipped; every other loop is classified. */
  method ReportCanonicals(sequence: array<Residue>, nres: int, rules: seq<ClassDef>, verbose: bool)
    returns (reports: seq<LoopReport>)
    requires 0 <= nres <= sequence.Length
    ensures |reports| == NCDR && reports == Reports(sequence[..nres], rules, verbose, |reports|)
  {
    ghost var s := sequence[..nres];
    reports := [];
    for loop := 0 to NCDR
      invariant |reports| == loop && reports == Reports(s, rules, verbose, loop)
    {
      var r := ReportOne(sequence, nres, s, rules, LoopTable[loop], verbose);
      reports := reports + [r];
    }
  }
}

=== FILE: readers.dfy ===
/** ReadChothiaData: the line-driven reader of the canonical class
    definition file. The file is given as its lines, each without its line
    terminator. */
module Readers {
  import opened Wrappers
  import opened Text
  import opened Residues
  import opened Canonicals

  /** How ReadChothiaData takes one line, once leading white space is gone. */
  datatype RuleLine =
    | Ignored                           // blank, or a '!' or '#' comment
    | SourceLine(text: string)          // SOURCE: the text after the keyword
    | ChothiaNumLine                    // CHOTHIANUM...: Chothia numbering
    | LoopLine(loopId: string, className: string, length: Option<int>)
    | KeyLine(resnum: string, restype: string)

  /** What a line is: it is trimmed of its leading white space, then
      classified. */
  function KindOf(line: string): RuleLine
  {
    TrimmedKind(line[SpaceEnd(line, 0)..])
  }

  /** A trimmed line: blank or a comment is skipped; the keywords are
      case-insensitive prefixes, tried in the order SOURCE, CHOTHIANUM,
      LOOP; any other line is a key position and its allowed residues. The
      SOURCE text and the LOOP fields are read from the text after the
      keyword's word. */
  function TrimmedKind(t: string): RuleLine
  {
    if t == [] || t[0] == '!' || t[0] == '#' then Ignored
    else if HasKeyword(t, 0, "SOURCE") then SourceLine(t[WordAt(t, 0).next..])
    else if HasKeyword(t, 0, "CHOTHIANUM") then ChothiaNumLine
    else if HasKeyword(t, 0, "LOOP") then LoopFields(t[WordAt(t, 0).next..])
    else KeyFields(t)
  }

  /** The loop id, class name and length words that follow LOOP. */
  function LoopFields(rest: string): RuleLine
  {
    var id := WordAt(rest, 0);
    var cls := WordAt(rest, id.next);
    var len := WordAt(rest, cls.next);
    LoopLine(Word(rest, id), Word(rest, cls), ScanInt(Word(rest, len)))
  }

  /** The residue label and allowed-residue words of a key line. */
  function KeyFields(t: string): RuleLine
  {
    var resnum := WordAt(t, 0);
    KeyLine(Word(t, resnum), Word(t, WordAt(t, resnum.next)))
  }

  /** `w` holds no white space. */
  predicate NoSpace(w: string)
  {
    forall j :: 0 <= j < |w| ==> !IsSpace(w[j])
  }

  /** A key line's fields are single words, and its residue label is not
      empty. */
  lemma KeyFieldsWords(t: string)
    requires t != [] && !IsSpace(t[0])
    ensures KeyFields(t).resnum != [] && NoSpace(KeyFields(t).resnum) && NoSpace(KeyFields(t).restype)
  {
    WordShape(t, 0);
    WordShape(t, WordAt(t, 0).next);
  }

  /** A LOOP line's loop id and class name are single words. */
  lemma LoopFieldsWords(rest: string)
    ensures NoSpace(LoopFields(rest).loopId) && NoSpace(LoopFields(rest).className)
  {
    WordShape(rest, 0);
    WordShape(rest, WordAt(rest, 0).next);
  }

  /** The fields a line yields are single words: none holds white space, and
      a key line's residue label is never empty. */
  lemma KindWords(line: string)
    ensures var kind := KindOf(line);
      && (kind.KeyLine? ==> kind.resnum != [] && NoSpace(kind.resnum) && NoSpace(kind.restype))
      && (kind.LoopLine? ==> NoSpace(kind.loopId) && NoSpace(kind.className))
  {
    var t := line[SpaceEnd(line, 0)..];
    if t == [] || t[0] == '!' || t[0] == '#' || HasKeyword(t, 0, "SOURCE") || HasKeyword(t, 0, "CHOTHIANUM") {
    } else if HasKeyword(t, 0, "LOOP") {
      LoopFieldsWords(t[WordAt(t, 0).next..]);
    } else {
      KeyFieldsWords(t);
    }
  }

  /** A line that is white space up to its end, or up to a '!' or '#', is
      skipped. */
  lemma CommentsIgnored(ws: string, rest: string)
    requires forall j :: 0 <= j < |ws| ==> IsSpace(ws[j])
    requires rest == [] || rest[0] == '!' || rest[0] == '#'
    ensures KindOf(ws + rest) == Ignored
  {
    SpaceEndSkips(ws + rest, 0, |ws|);
    assert (ws + rest)[|ws|..] == rest;
  }

  /** Leading white space does not change what a line is. */
  lemma LeadingSpaceIgnored(ws: string, line: string)
    requires forall j :: 0 <= j < |ws| ==> IsSpace(ws[j])
    ensures KindOf(ws + line) == KindOf(line)
  {
    TrimShift(ws, line);
  }

  /** Two trimmed lines that start with the same keyword, ignoring case,
      and have the same text after the keyword's word are the same kind of
      line. */
  lemma SameKeywordSameKind(t: string, other: string, kw: string)
    requires kw in ["SOURCE", "CHOTHIANUM", "LOOP"]
    requires HasKeyword(t, 0, kw) && HasKeyword(other, 0, kw)
    requires other[WordAt(other, 0).next..] == t[WordAt(t, 0).next..]
    ensures TrimmedKind(other) == TrimmedKind(t)
  {
    assert ToUpper(t[0]) == kw[0] && ToUpper(other[0]) == kw[0];
    if kw != "SOURCE" {
      assert !HasKeyword(t, 0, "SOURCE") && !HasKeyword(other, 0, "SOURCE") by {
        assert ToUpper(t[0]) != "SOURCE"[0] && ToUpper(other[0]) != "SOURCE"[0];
      }
    }
    if kw == "LOOP" {
      assert !HasKeyword(t, 0, "CHOTHIANUM") && !HasKeyword(other, 0, "CHOTHIANUM") by {
        assert ToUpper(t[0]) != "CHOTHIANUM"[0] && ToUpper(other[0]) != "CHOTHIANUM"[0];
      }
    }
  }

  /** On a trimmed line, writing the keyword in capitals does not change
      what the line is. */
  lemma CapitalizedKind(t: string, kw: string)
    requires kw in ["SOURCE", "CHOTHIANUM", "LOOP"]
    requires HasKeyword(t, 0, kw)
    ensures TrimmedKind(kw + t[|kw|..]) == TrimmedKind(t)
  {
    CapitalizedKeyword(t, kw);
    SameKeywordSameKind(t, kw + t[|kw|..], kw);
  }

  /** The keywords are matched ignoring case: a line starting with one in
      any mix of cases is the same kind of line as with the keyword written
      in capitals. */
  lemma KeywordCaseIgnored(line: string, kw: string)
    requires kw in ["SOURCE", "CHOTHIANUM", "LOOP"]
    requires HasKeyword(line, SpaceEnd(line, 0), kw)
    ensures var k := SpaceEnd(line, 0);
      KindOf(line[..k] + kw + line[k + |kw|..]) == KindOf(line)
  {
    var k := SpaceEnd(line, 0);
    var t := line[k..];
    assert HasKeyword(t, 0, kw);
    TrimKept(line, kw);
    CapitalizedKind(t, kw);
    SameTrimmedKind(line, line[..k] + kw + line[k + |kw|..]);
  }

  /** Lines whose text after the leading white space is the same kind of
      trimmed line are the same kind of line. */
  lemma SameTrimmedKind(line: string, other: string)
    requires SpaceEnd(other, 0) == SpaceEnd(line, 0)
    requires TrimmedKind(other[SpaceEnd(other, 0)..]) == TrimmedKind(line[SpaceEnd(line, 0)..])
    ensures KindOf(other) == KindOf(line)
  {
  }

  /** A line that does not start with white space is classified as it
      stands. */
  lemma TrimmedAlready(line: string)
    requires line != [] && !IsSpace(line[0])
    ensures KindOf(line) == TrimmedKind(line)
  {
    assert line[0..] == line;
  }

  /** A line that does not start with white space and is of kind `k` once
      trimmed is of kind `k` after any white space. */
  lemma KindAfterSpace(ws: string, line: string, k: RuleLine)
    requires forall j :: 0 <= j < |ws| ==> IsSpace(ws[j])
    requires line != [] && !IsSpace(line[0]) && TrimmedKind(line) == k
    ensures KindOf(ws + line) == k
  {
    LeadingSpaceIgnored(ws, line);
    TrimmedAlready(line);
  }

  /** A trimmed line starting with SOURCE, ignoring case, is a SOURCE line
      holding the text after the keyword's word. */
  lemma SourceDispatch(t: string)
    requires HasKeyword(t, 0, "SOURCE")
    ensures TrimmedKind(t) == SourceLine(t[WordAt(t, 0).next..])
  {
    KeywordFirst(t, "SOURCE");
  }

  /** A trimmed line starting with LOOP, ignoring case, is a LOOP line read
      from the text after the keyword's word. */
  lemma LoopDispatch(t: string)
    requires HasKeyword(t, 0, "LOOP")
    ensures TrimmedKind(t) == LoopFields(t[WordAt(t, 0).next..])
  {
    KeywordFirst(t, "LOOP");
    assert !HasKeyword(t, 0, "SOURCE") && !HasKeyword(t, 0, "CHOTHIANUM") by {
      assert ToUpper(t[0]) != "SOURCE"[0] && ToUpper(t[0]) != "CHOTHIANUM"[0];
    }
  }

  /** A text made of three words separated by single spaces. */
  lemma LoopFieldsAt(rest: string, id: string, cls: string, len: string)
    requires id != [] && forall j :: 0 <= j < |id| ==> !IsSpace(id[j])
    requires cls != [] && forall j :: 0 <= j < |cls| ==> !IsSpace(cls[j])
    requires len != [] && forall j :: 0 <= j < |len| ==> !IsSpace(len[j])
    requires |rest| == |id| + 1 + |cls| + 1 + |len|
    requires rest[..|id|] == id && rest[|id|] == ' '
    requires rest[|id| + 1..|id| + 1 + |cls|] == cls && rest[|id| + 1 + |cls|] == ' '
    requires rest[|id| + 1 + |cls| + 1..] == len
    ensures LoopFields(rest) == LoopLine(id, cls, ScanInt(len))
  {
    var a := |id|;
    var b := a + 1 + |cls|;
    assert rest[0..a] == id && rest[a + 1] == cls[0];
    WordThenWord(rest, 0, id);
    assert rest[b + 1] == len[0];
    WordThenWord(rest, a + 1, cls);
    LastWord(rest, b + 1, len);
  }

  /** The three words after LOOP are the loop id, the class name and the
      length word, in that order. */
  lemma LoopFieldsOf(id: string, cls: string, len: string)
    requires id != [] && forall j :: 0 <= j < |id| ==> !IsSpace(id[j])
    requires cls != [] && forall j :: 0 <= j < |cls| ==> !IsSpace(cls[j])
    requires len != [] && forall j :: 0 <= j < |len| ==> !IsSpace(len[j])
    ensures LoopFields(id + " " + cls + " " + len) == LoopLine(id, cls, ScanInt(len))
  {
    var rest := id + " " + cls + " " + len;
    var a := |id|;
    var b := a + 1 + |cls|;
    assert rest[..a] == id && rest[a] == ' ';
    assert rest[a + 1..b] == cls && rest[b] == ' ';
    assert rest[b + 1..] == len;
    LoopFieldsAt(rest, id, cls, len);
  }

  /** A key line's two words are its residue label and its allowed
      residues, in that order. */
  lemma KeyFieldsOf(r: string, types: string)
    requires r != [] && forall j :: 0 <= j < |r| ==> !IsSpace(r[j])
    requires types != [] && forall j :: 0 <= j < |types| ==> !IsSpace(types[j])
    ensures KeyFields(r + " " + types) == KeyLine(r, types)
  {
    var t := r + " " + types;
    assert t[0..|r|] == r && t[|r|] == ' ' && t[|r| + 1] == types[0];
    assert t[|r| + 1..|t|] == types;
    WordAtSlice(t, 0, r);
    WordAtSlice(t, |r| + 1, types);
  }

  /** A trimmed `LOOP id class length` line. */
  lemma LoopTrimmed(id: string, cls: string, len: string)
    requires id != [] && forall j :: 0 <= j < |id| ==> !IsSpace(id[j])
    requires cls != [] && forall j :: 0 <= j < |cls| ==> !IsSpace(cls[j])
    requires len != [] && forall j :: 0 <= j < |len| ==> !IsSpace(len[j])
    ensures TrimmedKind("LOOP " + (id + " " + cls + " " + len)) == LoopLine(id, cls, ScanInt(len))
  {
    var rest := id + " " + cls + " " + len;
    var line := "LOOP " + rest;
    KeywordThenText(line, "LOOP", rest);
    LoopDispatch(line);
    LoopFieldsOf(id, cls, len);
  }

  /** `LOOP id class length`, after any white space, gives a LOOP line with
      that loop id, that class name and that length. */
  lemma LoopLineFields(ws: string, id: string, cls: string, n: nat)
    requires forall j :: 0 <= j < |ws| ==> IsSpace(ws[j])
    requires id != [] && forall j :: 0 <= j < |id| ==> !IsSpace(id[j])
    requires cls != [] && forall j :: 0 <= j < |cls| ==> !IsSpace(cls[j])
    ensures KindOf(ws + ("LOOP " + (id + " " + cls + " " + Decimal(n)))) == LoopLine(id, cls, Some(n))
  {
    var d := Decimal(n);
    forall j | 0 <= j < |d|
      ensures !IsSpace(d[j])
    {
      assert IsDigit(d[j]);
    }
    LoopTrimmed(id, cls, d);
    ScanIntReadsDecimal(n, []);
    assert d + [] == d;
    KindAfterSpace(ws, "LOOP " + (id + " " + cls + " " + d), LoopLine(id, cls, Some(n)));
  }

  /** A trimmed `SOURCE text` line. */
  lemma SourceTrimmed(text: string)
    requires text == [] || !IsSpace(text[0])
    ensures TrimmedKind("SOURCE " + text) == SourceLine(text)
  {
    KeywordThenText("SOURCE " + text, "SOURCE", text);
    SourceDispatch("SOURCE " + text);
  }

  /** `SOURCE text`, after any white space, gives a SOURCE line holding
      `text`. */
  lemma SourceLineText(ws: string, text: string)
    requires forall j :: 0 <= j < |ws| ==> IsSpace(ws[j])
    requires text == [] || !IsSpace(text[0])
    ensures KindOf(ws + ("SOURCE " + text)) == SourceLine(text)
  {
    SourceTrimmed(text);
    KindAfterSpace(ws, "SOURCE " + text, SourceLine(text));
  }

  /** A trimmed line starting with CHOTHIANUM. */
  lemma ChothiaNumTrimmed(rest: string)
    ensures TrimmedKind("CHOTHIANUM" + rest) == ChothiaNumLine
  {
    var line := "CHOTHIANUM" + rest;
    assert forall j :: 0 <= j < 10 ==> line[j] == "CHOTHIANUM"[j];
    assert HasKeyword(line, 0, "CHOTHIANUM");
    KeywordFirst(line, "CHOTHIANUM");
    assert !HasKeyword(line, 0, "SOURCE") by {
      assert ToUpper(line[0]) != "SOURCE"[0];
    }
  }

  /** A line starting with CHOTHIANUM, after any white space, asks for
      Chothia numbering whatever follows. */
  lemma ChothiaNumLineKind(ws: string, rest: string)
    requires forall j :: 0 <= j < |ws| ==> IsSpace(ws[j])
    ensures KindOf(ws + ("CHOTHIANUM" + rest)) == ChothiaNumLine
  {
    ChothiaNumTrimmed(rest);
    KindAfterSpace(ws, "CHOTHIANUM" + rest, ChothiaNumLine);
  }

  /** A trimmed `resid types` line whose label is not a comment and does not
      start with a keyword. */
  lemma KeyTrimmed(r: string, types: string)
    requires r != [] && forall j :: 0 <= j < |r| ==> !IsSpace(r[j])
    requires types != [] && forall j :: 0 <= j < |types| ==> !IsSpace(types[j])
    requires r[0] != '!' && r[0] != '#'
    requires !HasKeyword(r, 0, "SOURCE") && !HasKeyword(r, 0, "CHOTHIANUM") && !HasKeyword(r, 0, "LOOP")
    ensures TrimmedKind(r + " " + types) == KeyLine(r, types)
  {
    var line := r + " " + types;
    assert line[0] == r[0];
    assert line[..|r|] == r && line[|r|] == ' ';
    KeywordWithinWord(r, line, "SOURCE");
    KeywordWithinWord(r, line, "CHOTHIANUM");
    KeywordWithinWord(r, line, "LOOP");
    KeyFieldsOf(r, types);
  }

  /** `resid types`, after any white space, gives a key line with that
      residue label and those allowed residues, when the label is not a
      comment and does not start with one of the keywords. */
  lemma KeyLineFields(ws: string, r: string, types: string)
    requires forall j :: 0 <= j < |ws| ==> IsSpace(ws[j])
    requires r != [] && forall j :: 0 <= j < |r| ==> !IsSpace(r[j])
    requires types != [] && forall j :: 0 <= j < |types| ==> !IsSpace(types[j])
    requires r[0] != '!' && r[0] != '#'
    requires !HasKeyword(r, 0, "SOURCE") && !HasKeyword(r, 0, "CHOTHIANUM") && !HasKeyword(r, 0, "LOOP")
    ensures KindOf(ws + (r + " " + types)) == KeyLine(r, types)
  {
    KeyTrimmed(r, types);
    KindAfterSpace(ws, r + " " + types, KeyLine(r, types));
  }

  /** The reader's state: the definitions so far (the last one is the
      current entry), how many key positions the current entry has, and
      whether the file asked for Chothia numbering. */
  datatype ReadState = ReadState(defs: seq<ClassDef>, count: nat, chothiaNum: bool)

  /** The state before the first line. */
  const Start := ReadState([], 0, false)

  /** `defs` with its last entry replaced by `d`. */
  function SetLast(defs: seq<ClassDef>, d: ClassDef): (r: seq<ClassDef>)
    requires defs != []
    ensures |r| == |defs| && r[..|r| - 1] == defs[..|defs| - 1] && r[|r| - 1] == d
  {
    defs[..|defs| - 1] + [d]
  }

  /** The LOOP header a definition was started from. */
  function HeaderOf(d: ClassDef): RuleLine
  {
    LoopLine(d.loopId, d.className, d.length)
  }

  /** The current entry's key list ended with the Sentinel. */
  function Terminate(defs: seq<ClassDef>): (r: seq<ClassDef>)
    ensures |r| == |defs|
    ensures defs != [] ==>
              && r[..|r| - 1] == defs[..|defs| - 1]
              && r[|r| - 1].keys == defs[|defs| - 1].keys + [KeyPos(Sentinel, "")]
              && HeaderOf(r[|r| - 1]) == HeaderOf(defs[|defs| - 1])
              && r[|r| - 1].source == defs[|defs| - 1].source
  {
    if defs == [] then []
    else
      var last := defs[|defs| - 1];
      SetLast(defs, last.(keys := last.keys + [KeyPos(Sentinel, "")]))
  }

  /** What one line, once classified, does to the reader; None when a key
      line takes the current entry past MaxChothRes key positions, which
      ends reading with failure. SOURCE and key lines before the first LOOP
      are ignored. */
  function StepKind(st: ReadState, kind: RuleLine): Option<ReadState>
  {
    match kind
    case Ignored => Some(st)
    case SourceLine(text) =>
      if st.defs == [] then Some(st)
      else Some(st.(defs := SetLast(st.defs, st.defs[|st.defs| - 1].(source := text))))
    case ChothiaNumLine => Some(st.(chothiaNum := true))
    case LoopLine(id, cls, len) =>
      Some(ReadState(Terminate(st.defs) + [ClassDef(id, cls, len, "", [])], 0, st.chothiaNum))
    case KeyLine(resnum, restype) =>
      if st.defs == [] then Some(st)
      else if st.count + 1 > MaxChothRes then None
      else
        var last := st.defs[|st.defs| - 1];
        Some(ReadState(SetLast(st.defs, last.(keys := last.keys + [KeyPos(resnum, restype)])),
                       st.count + 1, st.chothiaNum))
  }

  /** What each line of a file is, in file order. */
  function Kinds(lines: seq<string>): (kinds: seq<RuleLine>)
    ensures |kinds| == |lines|
  {
    seq(|lines|, i requires 0 <= i < |lines| => KindOf(lines[i]))
  }

  /** The reader run over the lines from index `n` on (given by their
      kinds), from state `st`. */
  function Run(st: ReadState, kinds: seq<RuleLine>, n: nat): Option<ReadState>
    requires n <= |kinds|
    decreases |kinds| - n
  {
    if n == |kinds| then Some(st)
    else
      match StepKind(st, kinds[n])
      case None => None
      case Some(next) => Run(next, kinds, n + 1)
  }

  /** The rule base read from a file: the definitions in file order and the
      numbering flag. */
  datatype RuleSet = RuleSet(defs: seq<ClassDef>, chothiaNumbering: bool)

  /** What ReadChothiaData leaves behind: None when it fails. */
  function ParseRules(lines: seq<string>): Option<RuleSet>
  {
    match Run(Start, Kinds(lines), 0)
    case None => None
    case Some(st) => Some(RuleSet(Terminate(st.defs), st.chothiaNum))
  }

  /** A finished entry: its key list ends with the Sentinel and holds at
      most MaxChothRes key positions before it. */
  predicate Terminated(d: ClassDef)
  {
    1 <= |d.keys| <= MaxChothRes + 1 && d.keys[|d.keys| - 1].resnum == Sentinel
  }

  /** What holds of the reader between lines: the current entry has `count`
      key positions, at most MaxChothRes, and every earlier entry is
      finished. */
  predicate Consistent(st: ReadState)
  {
    && st.count <= MaxChothRes
    && (st.defs != [] ==> |st.defs[|st.defs| - 1].keys| == st.count)
    && forall j :: 0 <= j < |st.defs| - 1 ==> Terminated(st.defs[j])
  }

  /** Ending the current entry finishes every entry. */
  lemma TerminateFinishes(st: ReadState)
    requires Consistent(st)
    ensures forall j :: 0 <= j < |Terminate(st.defs)| ==> Terminated(Terminate(st.defs)[j])
  {
  }

  /** Every line keeps the reader consistent. */
  lemma StepConsistent(st: ReadState, kind: RuleLine)
    requires Consistent(st) && StepKind(st, kind).Some?
    ensures Consistent(StepKind(st, kind).value)
  {
  }

  /** A run that does not fail leaves the reader consistent. */
  lemma {:induction false} RunConsistent(st: ReadState, kinds: seq<RuleLine>, n: nat)
    requires n <= |kinds| && Consistent(st) && Run(st, kinds, n).Some?
    ensures Consistent(Run(st, kinds, n).value)
    decreases |kinds| - n
  {
    if n < |kinds| {
      StepConsistent(st, kinds[n]);
      RunConsistent(StepKind(st, kinds[n]).value, kinds, n + 1);
    }
  }

  /** Every definition read from a file ends with the Sentinel, and at most
      MaxChothRes key positions come before its first Sentinel. */
  lemma ParsedDefsTerminated(lines: seq<string>)
    requires ParseRules(lines).Some?
    ensures forall j :: 0 <= j < |ParseRules(lines).value.defs| ==>
              && Terminated(ParseRules(lines).value.defs[j])
              && |ActiveKeys(ParseRules(lines).value.defs[j].keys)| <= MaxChothRes
  {
    RunConsistent(Start, Kinds(lines), 0);
    TerminateFinishes(Run(Start, Kinds(lines), 0).value);
  }

  /** For definitions read from a file, ReportACanonical names no closest
      class exactly when no definition has the loop's name and length. */
  lemma ParsedNoCandidateIffNoClosest(lines: seq<string>, sequence: seq<Residue>, loopName: string, loopLen: int)
    requires ParseRules(lines).Some?
    ensures var rules := ParseRules(lines).value.defs;
      Classify(sequence, rules, loopName, loopLen) == Unmatched(None) <==>
        forall j :: 0 <= j < |rules| ==> !Applies(rules[j], loopName, loopLen)
  {
    ParsedDefsTerminated(lines);
    NoCandidateIffNoClosest(sequence, ParseRules(lines).value.defs, loopName, loopLen);
  }

  /** The headers of `defs`, in list order. */
  function Headers(defs: seq<ClassDef>): (r: seq<RuleLine>)
    ensures |r| == |defs|
  {
    if defs == [] then [] else Headers(defs[..|defs| - 1]) + [HeaderOf(defs[|defs| - 1])]
  }

  /** The LOOP lines from index `n` on, in file order. */
  function LoopHeaders(kinds: seq<RuleLine>, n: nat): seq<RuleLine>
    requires n <= |kinds|
    decreases |kinds| - n
  {
    if n == |kinds| then []
    else (if kinds[n].LoopLine? then [kinds[n]] else []) + LoopHeaders(kinds, n + 1)
  }

  /** Replacing the last definition by one with the same header keeps the
      headers. */
  lemma HeadersSetLast(defs: seq<ClassDef>, d: ClassDef)
    requires defs != [] && HeaderOf(d) == HeaderOf(defs[|defs| - 1])
    ensures Headers(SetLast(defs, d)) == Headers(defs)
  {
  }

  /** Each line adds its own header when it is a LOOP line, and no other. */
  lemma StepHeaders(st: ReadState, kind: RuleLine)
    requires StepKind(st, kind).Some?
    ensures Headers(StepKind(st, kind).value.defs) ==
              Headers(st.defs) + (if kind.LoopLine? then [kind] else [])
  {
  }

  /** A run adds the headers of its LOOP lines, in file order. */
  lemma {:induction false} RunHeaders(st: ReadState, kinds: seq<RuleLine>, n: nat)
    requires n <= |kinds| && Run(st, kinds, n).Some?
    ensures Headers(Run(st, kinds, n).value.defs) == Headers(st.defs) + LoopHeaders(kinds, n)
    decreases |kinds| - n
  {
    if n < |kinds| {
      StepHeaders(st, kinds[n]);
      RunHeaders(StepKind(st, kinds[n]).value, kinds, n + 1);
    }
  }

  /** The definitions read from a file are one per LOOP line, in file order,
      each with that line's loop id, class name and length. */
  lemma ParsedHeaders(lines: seq<string>)
    requires ParseRules(lines).Some?
    ensures Headers(ParseRules(lines).value.defs) == LoopHeaders(Kinds(lines), 0)
  {
    var st := Run(Start, Kinds(lines), 0).value;
    RunHeaders(Start, Kinds(lines), 0);
    if st.defs != [] {
      var last := st.defs[|st.defs| - 1];
      HeadersSetLast(st.defs, last.(keys := last.keys + [KeyPos(Sentinel, "")]));
    }
  }

  /** Some line from index `n` on is a CHOTHIANUM line. */
  predicate AsksChothiaNumbering(kinds: seq<RuleLine>, n: nat)
  {
    exists i :: n <= i < |kinds| && kinds[i] == ChothiaNumLine
  }

  /** A run ends with the numbering flag set exactly when it was set already
      or one of its lines is a CHOTHIANUM line. */
  lemma {:induction false} RunNumbering(st: ReadState, kinds: seq<RuleLine>, n: nat)
    requires n <= |kinds| && Run(st, kinds, n).Some?
    ensures Run(st, kinds, n).value.chothiaNum <==> st.chothiaNum || AsksChothiaNumbering(kinds, n)
    decreases |kinds| - n
  {
    if n < |kinds| {
      var next := StepKind(st, kinds[n]).value;
      RunNumbering(next, kinds, n + 1);
      assert next.chothiaNum <==> st.chothiaNum || kinds[n] == ChothiaNumLine;
      if AsksChothiaNumbering(kinds, n) && kinds[n] != ChothiaNumLine {
        var i :| n <= i < |kinds| && kinds[i] == ChothiaNumLine;
        assert n + 1 <= i;
      }
    }
  }

  /** The rule base asks for Chothia numbering exactly when the file has a
      CHOTHIANUM line. */
  lemma ParsedNumbering(lines: seq<string>)
    requires ParseRules(lines).Some?
    ensures ParseRules(lines).value.chothiaNumbering <==> AsksChothiaNumbering(Kinds(lines), 0)
  {
    RunNumbering(Start, Kinds(lines), 0);
  }

  /** Before the first LOOP line there is no current entry: SOURCE and key
      lines change nothing there and reading cannot fail. */
  lemma {:induction false} NoEntryYet(st: ReadState, kinds: seq<RuleLine>, n: nat)
    requires n <= |kinds| && st.defs == []
    requires forall i :: n <= i < |kinds| ==> !kinds[i].LoopLine?
    ensures Run(st, kinds, n).Some?
    ensures Run(st, kinds, n).value.defs == [] && Run(st, kinds, n).value.count == st.count
    decreases |kinds| - n
  {
    if n < |kinds| {
      var next := StepKind(st, kinds[n]);
      assert next.Some? && next.value.defs == [] && next.value.count == st.count;
      NoEntryYet(next.value, kinds, n + 1);
    }
  }

  /** A file without a LOOP line yields no definitions, and reading it does
      not fail, whatever key lines it holds. */
  lemma NoLoopNoDefinitions(lines: seq<string>)
    requires forall i :: 0 <= i < |lines| ==> !KindOf(lines[i]).LoopLine?
    ensures ParseRules(lines).Some? && ParseRules(lines).value.defs == []
  {
    NoEntryYet(Start, Kinds(lines), 0);
  }

  /** The key positions of the key lines from index `n` up to the next
      LOOP line or the end of the file, in file order. */
  function KeysFrom(kinds: seq<RuleLine>, n: nat): seq<KeyPos>
    requires n <= |kinds|
    decreases |kinds| - n
  {
    if n == |kinds| || kinds[n].LoopLine? then []
    else (if kinds[n].KeyLine? then [KeyPos(kinds[n].resnum, kinds[n].restype)] else [])
         + KeysFrom(kinds, n + 1)
  }

  /** The text of the last SOURCE line from index `n` up to the next LOOP
      line or the end of the file, or `current` when there is none. */
  function SourceFrom(kinds: seq<RuleLine>, n: nat, current: string): string
    requires n <= |kinds|
    decreases |kinds| - n
  {
    if n == |kinds| || kinds[n].LoopLine? then current
    else SourceFrom(kinds, n + 1, if kinds[n].SourceLine? then kinds[n].text else current)
  }

  /** The definition the LOOP line at index `n` starts, as the lines up to
      the next LOOP line fill it in: the header's fields, the text of the
      last SOURCE line (empty when there is none), and the key lines in
      order, ended by the Sentinel. */
  function EntryAt(kinds: seq<RuleLine>, n: nat): (d: ClassDef)
    requires n < |kinds| && kinds[n].LoopLine?
    ensures HeaderOf(d) == kinds[n]
  {
    ClassDef(kinds[n].loopId, kinds[n].className, kinds[n].length, SourceFrom(kinds, n + 1, ""),
             KeysFrom(kinds, n + 1) + [KeyPos(Sentinel, "")])
  }

  /** The definitions of the LOOP lines from index `n` on, in file order. */
  function Entries(kinds: seq<RuleLine>, n: nat): seq<ClassDef>
    requires n <= |kinds|
    decreases |kinds| - n
  {
    if n == |kinds| then []
    else (if kinds[n].LoopLine? then [EntryAt(kinds, n)] else []) + Entries(kinds, n + 1)
  }

  /** Some LOOP line from index `n` on is followed by more than MaxChothRes
      key lines before the next LOOP line. */
  predicate Overfull(kinds: seq<RuleLine>, n: nat)
  {
    exists i :: n <= i < |kinds| && kinds[i].LoopLine? && |KeysFrom(kinds, i + 1)| > MaxChothRes
  }

  /** Overfull from `n` is the line at `n` overfilling its entry, or some
      later line doing so. */
  lemma OverfullStep(kinds: seq<RuleLine>, n: nat)
    requires n < |kinds|
    ensures Overfull(kinds, n) <==>
              || (kinds[n].LoopLine? && |KeysFrom(kinds, n + 1)| > MaxChothRes)
              || Overfull(kinds, n + 1)
  {
    if Overfull(kinds, n) && !Overfull(kinds, n + 1) {
      var i :| n <= i < |kinds| && kinds[i].LoopLine? && |KeysFrom(kinds, i + 1)| > MaxChothRes;
      assert i == n;
    }
  }

  /** Reading the lines from `n` on fails exactly when the current entry
      (if any) gets more than MaxChothRes key positions before the next
      LOOP line, or a later entry does. Blank, comment, SOURCE and
      CHOTHIANUM lines do not reset the count. */
  lemma {:induction false} RunFails(st: ReadState, kinds: seq<RuleLine>, n: nat)
    requires n <= |kinds| && st.count <= MaxChothRes
    ensures Run(st, kinds, n).None? <==>
              || (st.defs != [] && st.count + |KeysFrom(kinds, n)| > MaxChothRes)
              || Overfull(kinds, n)
    decreases |kinds| - n
  {
    if n < |kinds| {
      OverfullStep(kinds, n);
      var next := StepKind(st, kinds[n]);
      if next.Some? {
        RunFails(next.value, kinds, n + 1);
      }
    }
  }

  /** The definitions once reading the lines from `n` on, from `st`, is
      over and the last key list ended: the current entry (if any)
      completed by the lines up to the next LOOP line, then one definition
      per later LOOP line. */
  function Completed(st: ReadState, kinds: seq<RuleLine>, n: nat): seq<ClassDef>
    requires n <= |kinds|
  {
    if st.defs == [] then Entries(kinds, n)
    else
      var last := st.defs[|st.defs| - 1];
      SetLast(st.defs, last.(source := SourceFrom(kinds, n, last.source),
                             keys := last.keys + KeysFrom(kinds, n) + [KeyPos(Sentinel, "")]))
      + Entries(kinds, n)
  }

  /** The entry a LOOP line starts, once the lines up to the next LOOP line
      have filled it in, is the one EntryAt gives. */
  lemma LoopFills(st: ReadState, kinds: seq<RuleLine>, n: nat)
    requires n < |kinds| && kinds[n].LoopLine?
    ensures Completed(StepKind(st, kinds[n]).value, kinds, n + 1) ==
              Terminate(st.defs) + [EntryAt(kinds, n)] + Entries(kinds, n + 1)
  {
    var kind := kinds[n];
    var d := ClassDef(kind.loopId, kind.className, kind.length, "", []);
    var filled := d.(source := SourceFrom(kinds, n + 1, d.source),
                     keys := d.keys + KeysFrom(kinds, n + 1) + [KeyPos(Sentinel, "")]);
    assert filled == EntryAt(kinds, n) by {
      assert [] + KeysFrom(kinds, n + 1) == KeysFrom(kinds, n + 1);
    }
    assert SetLast(Terminate(st.defs) + [d], filled) == Terminate(st.defs) + [filled];
  }

  /** A LOOP line ends the current entry, as Completed had it, and starts
      the entry Entries gives it. */
  lemma LoopCompletes(st: ReadState, kinds: seq<RuleLine>, n: nat)
    requires n < |kinds| && kinds[n].LoopLine?
    ensures Completed(StepKind(st, kinds[n]).value, kinds, n + 1) == Completed(st, kinds, n)
  {
    LoopFills(st, kinds, n);
    var rest := Entries(kinds, n + 1);
    assert Entries(kinds, n) == [EntryAt(kinds, n)] + rest;
    if st.defs != [] {
      var last := st.defs[|st.defs| - 1];
      assert KeysFrom(kinds, n) == [] && SourceFrom(kinds, n, last.source) == last.source;
      assert last.keys + KeysFrom(kinds, n) == last.keys;
      assert Completed(st, kinds, n) == Terminate(st.defs) + Entries(kinds, n);
    }
    assert Terminate(st.defs) + [EntryAt(kinds, n)] + rest == Terminate(st.defs) + ([EntryAt(kinds, n)] + rest);
  }

  /** A key line of an open entry moves one key position from KeysFrom into
      the entry. */
  lemma KeyCompletes(st: ReadState, kinds: seq<RuleLine>, n: nat)
    requires n < |kinds| && kinds[n].KeyLine? && st.defs != [] && StepKind(st, kinds[n]).Some?
    ensures Completed(StepKind(st, kinds[n]).value, kinds, n + 1) == Completed(st, kinds, n)
  {
    var last := st.defs[|st.defs| - 1];
    var k := KeyPos(kinds[n].resnum, kinds[n].restype);
    assert last.keys + [k] + KeysFrom(kinds, n + 1) == last.keys + KeysFrom(kinds, n);
  }

  /** A blank, comment, SOURCE or CHOTHIANUM line, or a key line before the
      first LOOP line, leaves what the reader will complete unchanged. */
  lemma OtherCompletes(st: ReadState, kinds: seq<RuleLine>, n: nat)
    requires n < |kinds| && !kinds[n].LoopLine? && !(kinds[n].KeyLine? && st.defs != [])
    ensures Completed(StepKind(st, kinds[n]).value, kinds, n + 1) == Completed(st, kinds, n)
  {
    assert Entries(kinds, n) == Entries(kinds, n + 1);
    if st.defs != [] {
      assert KeysFrom(kinds, n) == KeysFrom(kinds, n + 1);
    }
  }

  /** One line moves the reader without changing what it will complete. */
  lemma CompletedStep(st: ReadState, kinds: seq<RuleLine>, n: nat)
    requires n < |kinds| && StepKind(st, kinds[n]).Some?
    ensures Completed(StepKind(st, kinds[n]).value, kinds, n + 1) == Completed(st, kinds, n)
  {
    if kinds[n].LoopLine? {
      LoopCompletes(st, kinds, n);
    } else if kinds[n].KeyLine? && st.defs != [] {
      KeyCompletes(st, kinds, n);
    } else {
      OtherCompletes(st, kinds, n);
    }
  }

  /** At the end of the file only the current entry is left to end. */
  lemma CompletedAtEnd(st: ReadState, kinds: seq<RuleLine>)
    ensures Completed(st, kinds, |kinds|) == Terminate(st.defs)
  {
    if st.defs != [] {
      var last := st.defs[|st.defs| - 1];
      assert last.keys + KeysFrom(kinds, |kinds|) == last.keys;
    }
  }

  /** A run that does not fail leaves what Completed predicts. */
  lemma {:induction false} RunEntries(st: ReadState, kinds: seq<RuleLine>, n: nat)
    requires n <= |kinds| && Run(st, kinds, n).Some?
    ensures Terminate(Run(st, kinds, n).value.defs) == Completed(st, kinds, n)
    decreases |kinds| - n
  {
    if n < |kinds| {
      RunEntries(StepKind(st, kinds[n]).value, kinds, n + 1);
      CompletedStep(st, kinds, n);
    } else {
      CompletedAtEnd(st, kinds);
    }
  }

  /** The rule base read from a file: reading fails exactly when some entry
      has more than MaxChothRes key lines between its LOOP line and the
      next one; otherwise there is one definition per LOOP line, in file
      order, holding that line's fields, the text of the last SOURCE line
      of its entry, and its key lines in order followed by the Sentinel.
      Key and SOURCE lines before the first LOOP line are dropped. */
  lemma ParsedEntries(lines: seq<string>)
    ensures ParseRules(lines).None? <==> Overfull(Kinds(lines), 0)
    ensures ParseRules(lines).Some? ==> ParseRules(lines).value.defs == Entries(Kinds(lines), 0)
  {
    RunFails(Start, Kinds(lines), 0);
    if Run(Start, Kinds(lines), 0).Some? {
      RunEntries(Start, Kinds(lines), 0);
    }
  }

  /** ReadChothiaData: each line is trimmed of leading white space; blank and
      comment lines are skipped; SOURCE stores its text in the current entry;
      CHOTHIANUM sets the numbering flag; LOOP ends the current entry's key
      list and starts a new entry; any other line adds a key position to the
      current entry, failing once there are more than MaxChothRes. */
  method ReadChothiaData(lines: seq<string>) returns (r: Option<RuleSet>)
    ensures r == ParseRules(lines)
    ensures r.None? <==> Overfull(Kinds(lines), 0)
    ensures r.Some? ==>
              && r.value.defs == Entries(Kinds(lines), 0)
              && (r.value.chothiaNumbering <==> AsksChothiaNumbering(Kinds(lines), 0))
  {
    ParsedEntries(lines);
    ghost var kinds := Kinds(lines);
    var st := Start;
    var n := 0;
    while n < |lines|
      invariant 0 <= n <= |lines|
      invariant Run(Start, kinds, 0) == Run(st, kinds, n)
    {
      var next := StepKind(st, KindOf(lines[n]));
      if next.None? {
        return None;
      }
      st := next.value;
      n := n + 1;
    }
    ParsedNumbering(lines);
    return Some(RuleSet(Terminate(st.defs), st.chothiaNum));
  }
}

=== FILE: residues.dfy ===
/** FindRes: locating a residue label in the numbered input sequence, with
    the fall-backs for insertion codes. */
module Residues {
  import opened Text

  /** One numbered residue of the input: its label (such as "H35A") and its
      one-letter amino-acid code. */
  datatype Residue = Residue(resnum: string, code: char)

  /** The first index whose label is exactly `name`, or -1. */
  function IndexOf(sequence: seq<Residue>, name: string): (r: int)
    ensures -1 <= r < |sequence|
    ensures r >= 0 ==> sequence[r].resnum == name
    ensures forall j {:trigger sequence[j].resnum} :: 0 <= j < |sequence| && (r < 0 || j < r) ==> sequence[j].resnum != name
  {
    if sequence == [] then -1
    else if sequence[0].resnum == name then 0
    else
      var r := IndexOf(sequence[1..], name);
      if r < 0 then -1 else r + 1
  }

  /** The first index whose label, cut at its own insertion code, is `stem`,
      or -1. */
  function StemIndex(sequence: seq<Residue>, stem: string): (r: int)
    ensures -1 <= r < |sequence|
    ensures r >= 0 ==> Stem(sequence[r].resnum) == stem
    ensures forall j {:trigger Stem(sequence[j].resnum)} :: 0 <= j < |sequence| && (r < 0 || j < r) ==> Stem(sequence[j].resnum) != stem
  {
    if sequence == [] then -1
    else if Stem(sequence[0].resnum) == stem then 0
    else
      var r := StemIndex(sequence[1..], stem);
      if r < 0 then -1 else r + 1
  }

  /** `res` with the code at `pos` replaced by the character with code `c`:
      the local buffer of FindRes after its insertion code was stepped down. */
  function WithCode(res: string, pos: nat, c: int): (t: string)
    requires pos < |res| && 0 <= c < 0xD800
    ensures |t| == |res| && t[pos] as int == c
  {
    res[pos := c as char]
  }

  /** `name` is `res` with the insertion code at `pos` stepped down to some
      code no lower than 'A' and no higher than `c`. */
  predicate SteppedTo(name: string, res: string, pos: nat, c: int)
    requires pos < |res|
  {
    && |name| == |res|
    && 'A' as int <= name[pos] as int <= c
    && name == res[pos := name[pos]]
  }

  /** The whole-array exact scans FindRes makes with the insertion code at
      `pos` set to `c`, then `c` - 1, and so on while it stays at or above
      'A'; the first hit wins. */
  function StepDown(sequence: seq<Residue>, res: string, pos: nat, c: int): (r: int)
    requires pos < |res| && c < 0xD800
    ensures -1 <= r < |sequence|
    ensures r >= 0 ==> SteppedTo(sequence[r].resnum, res, pos, c)
    decreases c
  {
    if c < 'A' as int then -1
    else
      var i := IndexOf(sequence, WithCode(res, pos, c));
      if i >= 0 then i else StepDown(sequence, res, pos, c - 1)
  }

  /** Where FindRes finds the residue labelled `res`: an exact match; else,
      when `res` has an insertion code, the same label with that code stepped
      down one at a time while it stays at or above 'A'; else the first
      residue whose label cut at its insertion code equals `res` cut at its
      own; else -1. */
  function Lookup(sequence: seq<Residue>, res: string): (r: int)
    ensures -1 <= r < |sequence|
    ensures forall j {:trigger sequence[j].resnum} :: 0 <= j < |sequence| && sequence[j].resnum == res ==>
              0 <= r <= j && sequence[r].resnum == res
    ensures InsertPos(res) < 0 ==> r == -1 || sequence[r].resnum == res
    ensures r >= 0 ==>
              || sequence[r].resnum == res
              || (InsertPos(res) >= 1
                  && (|| SteppedTo(sequence[r].resnum, res, InsertPos(res), res[InsertPos(res)] as int - 1)
                      || Stem(sequence[r].resnum) == Stem(res)))
  {
    var exact := IndexOf(sequence, res);
    if exact >= 0 then exact
    else
      var p := InsertPos(res);
      if p < 0 then -1
      else
        var stepped := StepDown(sequence, res, p, res[p] as int - 1);
        if stepped >= 0 then stepped else StemIndex(sequence, res[..p])
  }

  /** One pass of strcmp over the first `nres` entries. */
  method ScanExact(sequence: array<Residue>, nres: int, res: string) returns (idx: int)
    requires 0 <= nres <= sequence.Length
    ensures idx == IndexOf(sequence[..nres], res)
  {
    var i := 0;
    while i < nres
      invariant 0 <= i <= nres
      invariant forall j :: 0 <= j < i ==> sequence[j].resnum != res
    {
      if sequence[i].resnum == res {
        return i;
      }
      i := i + 1;
    }
    return -1;
  }

  /** The last pass of FindRes: each stored label is copied, cut with
      TERMALPHA and compared with the cut query. */
  method ScanStems(sequence: array<Residue>, nres: int, res: string) returns (idx: int)
    requires 0 <= nres <= sequence.Length
    ensures idx == StemIndex(sequence[..nres], res)
  {
    var i := 0;
    while i < nres
      invariant 0 <= i <= nres
      invariant forall j :: 0 <= j < i ==> Stem(sequence[j].resnum) != res
    {
      var buff := TermAlpha(sequence[i].resnum);
      if buff == res {
        return i;
      }
      i := i + 1;
    }
    return -1;
  }

  /** The search of FindRes, on the array `sequence` of which the first
      `nres` entries are in use. The query is copied into a local buffer
      whose insertion code is stepped down in place and which is finally cut
      at the insertion code. */
  method FindRes(sequence: array<Residue>, nres: int, inRes: string) returns (idx: int)
    requires 0 <= nres <= sequence.Length
    ensures -1 <= idx < nres
    ensures idx == Lookup(sequence[..nres], inRes)
  {
    var res := inRes;

    // Full residue names
    idx := ScanExact(sequence, nres, res);
    if idx >= 0 {
      return;
    }

    // Is there an insertion code? Position 0 is the chain name.
    var insPos := -1;
    var i := 1;
    while i < |res|
      invariant 1 <= i
      invariant forall j :: 1 <= j < i && j < |res| ==> !IsAlpha(res[j])
    {
      if IsAlpha(res[i]) {
        insPos := i;
        break;
      }
      i := i + 1;
    }
    assert insPos == InsertPos(inRes);
    if insPos < 0 {
      return -1;
    }

    // Step the insertion code down, then try without it
    idx := StepInsertCode(sequence, nres, inRes, insPos);
    if idx < 0 {
      idx := ScanStems(sequence, nres, inRes[..insPos]);
    }
  }

  /** The middle stage of FindRes: the insertion code at `insPos` of the
      local buffer is decremented in place, and the whole array is scanned
      for an exact match after each step, while the code is at least 'A'. */
  method StepInsertCode(sequence: array<Residue>, nres: int, inRes: string, insPos: nat) returns (idx: int)
    requires 0 <= nres <= sequence.Length
    requires 1 <= insPos < |inRes| && IsAlpha(inRes[insPos])
    ensures idx == StepDown(sequence[..nres], inRes, insPos, inRes[insPos] as int - 1)
  {
    var res := WithCode(inRes, insPos, inRes[insPos] as int - 1);
    while res[insPos] >= 'A'
      invariant |res| == |inRes|
      invariant res == WithCode(inRes, insPos, res[insPos] as int)
      invariant 'A' as int - 1 <= res[insPos] as int < inRes[insPos] as int
      invariant StepDown(sequence[..nres], inRes, insPos, inRes[insPos] as int - 1)
                == StepDown(sequence[..nres], inRes, insPos, res[insPos] as int)
      decreases res[insPos] as int
    {
      idx := ScanExact(sequence, nres, res);
      if idx >= 0 {
        return;
      }
      res := WithCode(res, insPos, res[insPos] as int - 1);
    }
    return -1;
  }

  /** Stepping down from `c` reaches the highest code `hit` at or below `c`
      whose label is present, and returns where that label first occurs. */
  lemma {:induction false} StepDownFindsHighest(sequence: seq<Residue>, res: string, pos: nat, c: int, hit: int)
    requires pos < |res| && 'A' as int <= hit <= c < 0xD800
    requires IndexOf(sequence, WithCode(res, pos, hit)) >= 0
    requires forall d :: hit < d <= c ==> IndexOf(sequence, WithCode(res, pos, d)) < 0
    ensures StepDown(sequence, res, pos, c) == IndexOf(sequence, WithCode(res, pos, hit))
    decreases c
  {
    if c > hit {
      StepDownFindsHighest(sequence, res, pos, c - 1, hit);
    }
  }

  /** Stepping down from `c` finds nothing when no code from 'A' to `c` gives
      a label that is present. */
  lemma {:induction false} StepDownFails(sequence: seq<Residue>, res: string, pos: nat, c: int)
    requires pos < |res| && c < 0xD800
    requires forall d :: 'A' as int <= d <= c ==> IndexOf(sequence, WithCode(res, pos, d)) < 0
    ensures StepDown(sequence, res, pos, c) == -1
    decreases c
  {
    if c >= 'A' as int {
      StepDownFails(sequence, res, pos, c - 1);
    }
  }

  /** Without an exact match, a query with an insertion code finds the label
      with the highest lower code that is present, before any label without
      an insertion code is considered: asking for "H35B" finds "H35A" ahead
      of "H35". */
  lemma LookupPrefersLowerCode(sequence: seq<Residue>, res: string, hit: int)
    requires IndexOf(sequence, res) < 0
    requires InsertPos(res) >= 1
    requires 'A' as int <= hit < res[InsertPos(res)] as int
    requires IndexOf(sequence, WithCode(res, InsertPos(res), hit)) >= 0
    requires forall d :: hit < d < res[InsertPos(res)] as int ==>
               IndexOf(sequence, WithCode(res, InsertPos(res), d)) < 0
    ensures Lookup(sequence, res) == IndexOf(sequence, WithCode(res, InsertPos(res), hit))
  {
    var p := InsertPos(res);
    StepDownFindsHighest(sequence, res, p, res[p] as int - 1, hit);
  }

  /** Only when no stepped-down code gives a present label does the search
      compare labels cut at their insertion codes, and then it returns the
      first residue whose cut label equals the cut query. */
  lemma LookupFallsBackToStem(sequence: seq<Residue>, res: string)
    requires IndexOf(sequence, res) < 0
    requires InsertPos(res) >= 1
    requires forall d :: 'A' as int <= d < res[InsertPos(res)] as int ==>
               IndexOf(sequence, WithCode(res, InsertPos(res), d)) < 0
    ensures Lookup(sequence, res) == StemIndex(sequence, Stem(res))
  {
    var p := InsertPos(res);
    StepDownFails(sequence, res, p, res[p] as int - 1);
  }

  /** The revision of 18.08.95: "H35B" finds "H35A" rather than "H35". */
  lemma H35BFindsH35A()
    ensures Lookup([Residue("H35", 'S'), Residue("H35A", 'W')], "H35B") == 1
  {
  }

  /** A lower-case insertion code steps down through the punctuation that
      lies between 'a' and 'Z' and then through the capitals: "H35b" finds
      "H35Z" ahead of "H35". */
  lemma LowerCaseCodeReachesCapitals()
    ensures Lookup([Residue("H35", 'S'), Residue("H35Z", 'W')], "H35b") == 1
  {
    var s := [Residue("H35", 'S'), Residue("H35Z", 'W')];
    assert InsertPos("H35b") == 3;
    assert WithCode("H35b", 3, 'Z' as int) == "H35Z";
    forall d | 'Z' as int < d < 'b' as int
      ensures IndexOf(s, WithCode("H35b", 3, d)) < 0
    {
      assert WithCode("H35b", 3, d)[3] != 'Z';
    }
    LookupPrefersLowerCode(s, "H35b", 'Z' as int);
  }
}

=== FILE: text.dfy ===
/** Character classes and the small string utilities the program takes from
    the C library and from bioplib, stated as the program uses them. Strings
    stand for the characters before the terminating NUL; nothing here keeps
    '\0' out of them. */
module Text {
  import opened Wrappers

  /** isalpha() in the C locale. */
  predicate IsAlpha(c: char) { 'A' <= c <= 'Z' || 'a' <= c <= 'z' }

  /** isdigit(). */
  predicate IsDigit(c: char) { '0' <= c <= '9' }

  /** isspace() in the C locale: space, tab, newline, vertical tab, form feed
      and carriage return. */
  predicate IsSpace(c: char) { c == ' ' || '\t' <= c <= '\r' }

  /** toupper() in the C locale. */
  function ToUpper(c: char): char
  {
    if 'a' <= c <= 'z' then (c as int - 32) as char else c
  }

  /** The index of the first letter of `s` at or after `i`, or -1. */
  function AlphaFrom(s: string, i: nat): (p: int)
    ensures p == -1 || i <= p < |s|
    ensures p >= 0 ==> IsAlpha(s[p])
    ensures forall j {:trigger IsAlpha(s[j])} :: i <= j < |s| && (p < 0 || j < p) ==> !IsAlpha(s[j])
    decreases |s| - i
  {
    if i >= |s| then -1
    else if IsAlpha(s[i]) then i
    else AlphaFrom(s, i + 1)
  }

  /** Where the insertion code of a residue label sits: the first letter after
      position 0 (position 0 is the chain name), or -1 when there is none. */
  function InsertPos(s: string): (p: int)
    ensures p == -1 || 1 <= p < |s|
    ensures p >= 1 ==> IsAlpha(s[p])
    ensures forall j {:trigger IsAlpha(s[j])} :: 1 <= j < |s| && (p < 0 || j < p) ==> !IsAlpha(s[j])
  {
    AlphaFrom(s, 1)
  }

  /** A label cut at its insertion code: what TERMALPHA leaves when it is
      applied from position 1 of the label. */
  function Stem(s: string): (t: string)
    ensures t <= s
    ensures forall j {:trigger IsAlpha(t[j])} :: 1 <= j < |t| ==> !IsAlpha(t[j])
    ensures t == s || (1 <= |t| < |s| && IsAlpha(s[|t|]))
  {
    var p := InsertPos(s);
    if p < 0 then s else s[..p]
  }

  /** Cutting a label twice leaves what cutting it once left. */
  lemma StemIdempotent(s: string)
    ensures Stem(Stem(s)) == Stem(s)
  {
  }

  /** The TERMALPHA macro applied to buff+1: the copy of a stored label is cut
      at the first letter after its chain name. */
  method TermAlpha(buff: string) returns (cut: string)
    ensures cut == Stem(buff)
  {
    cut := buff;
    var j := 1;
    while j < |buff|
      invariant 1 <= j
      invariant forall k :: 1 <= k < j && k < |buff| ==> !IsAlpha(buff[k])
    {
      if IsAlpha(buff[j]) {
        cut := buff[..j];
        break;
      }
      j := j + 1;
    }
  }

  /** The end of the run of white space that starts at `i`. */
  function SpaceEnd(s: string, i: nat): (e: nat)
    requires i <= |s|
    ensures i <= e <= |s|
    ensures forall j {:trigger IsSpace(s[j])} :: i <= j < e ==> IsSpace(s[j])
    ensures e == |s| || !IsSpace(s[e])
    decreases |s| - i
  {
    if i == |s| || !IsSpace(s[i]) then i else SpaceEnd(s, i + 1)
  }

  /** The end of the run of non-space characters that starts at `i`. */
  function WordEnd(s: string, i: nat): (e: nat)
    requires i <= |s|
    ensures i <= e <= |s|
    ensures forall j {:trigger IsSpace(s[j])} :: i <= j < e ==> !IsSpace(s[j])
    ensures e == |s| || IsSpace(s[e])
    decreases |s| - i
  {
    if i == |s| || IsSpace(s[i]) then i else WordEnd(s, i + 1)
  }

  /** Where bioplib's GetWord, whose source is not part of this model, finds
      a word when called on `s` from position `i`: white space is skipped,
      the word is the run of non-space characters that follows
      (`start`..`end`), and the position it returns is at the next non-space
      character after the word (`next`). */
  datatype Span = Span(start: nat, end: nat, next: nat)

  /** From `i` up to `next`, the characters of the word are exactly the
      ones that are not white space; the word ends at white space or at the
      end of `s`. */
  function WordAt(s: string, i: nat): (w: Span)
    requires i <= |s|
    ensures i <= w.start <= w.end <= w.next <= |s|
    ensures forall j {:trigger IsSpace(s[j])} :: i <= j < w.next ==> (IsSpace(s[j]) <==> !(w.start <= j < w.end))
    ensures w.end == |s| || IsSpace(s[w.end])
    ensures w.start == w.end ==> w.next == |s|
    ensures w.next == |s| || !IsSpace(s[w.next])
  {
    var k := SpaceEnd(s, i);
    var e := WordEnd(s, k);
    Span(k, e, SpaceEnd(s, e))
  }

  /** The text of a word found by WordAt. */
  function Word(s: string, w: Span): string
    requires w.start <= w.end <= |s|
  {
    s[w.start..w.end]
  }

  /** A word has no white space in it, and a word looked for at a non-space
      character starts there and is not empty. */
  lemma WordShape(s: string, i: nat)
    requires i <= |s|
    ensures forall j :: 0 <= j < |Word(s, WordAt(s, i))| ==> !IsSpace(Word(s, WordAt(s, i))[j])
    ensures i < |s| && !IsSpace(s[i]) ==> WordAt(s, i).start == i < WordAt(s, i).end
  {
  }

  /** GetWord applied to white space, a word and what follows it finds that
      word. */
  lemma WordAtFindsWord(ws: string, w: string, t: string)
    requires forall j :: 0 <= j < |ws| ==> IsSpace(ws[j])
    requires w != [] && forall j :: 0 <= j < |w| ==> !IsSpace(w[j])
    requires t == [] || IsSpace(t[0])
    ensures Word(ws + w + t, WordAt(ws + w + t, 0)) == w
  {
    var s := ws + w + t;
    assert s[|ws|] == w[0];
    SpaceEndSkips(s, 0, |ws|);
    assert s[|ws|..|ws| + |w|] == w;
  }

  /** A word `w` written at `i` and followed by white space or by the end
      of `s` is the word GetWord finds there; when one space separates it
      from a non-space character or from the end, GetWord goes on from
      just after that space. */
  lemma WordAtSlice(s: string, i: nat, w: string)
    requires w != [] && forall j :: 0 <= j < |w| ==> !IsSpace(w[j])
    requires i + |w| <= |s| && s[i..i + |w|] == w
    requires i + |w| == |s| || IsSpace(s[i + |w|])
    ensures WordAt(s, i).start == i && WordAt(s, i).end == i + |w|
    ensures Word(s, WordAt(s, i)) == w
    ensures i + |w| == |s| ==> WordAt(s, i).next == |s|
    ensures i + |w| < |s| && (i + |w| + 1 == |s| || !IsSpace(s[i + |w| + 1])) ==>
              WordAt(s, i).next == i + |w| + 1
  {
    assert s[i] == w[0];
    forall j | i <= j < i + |w|
      ensures !IsSpace(s[j])
    {
      assert s[j] == w[j - i];
    }
    WordEndSkips(s, i, i + |w|);
  }

  /** A word followed by one space and a further word: WordAt finds the
      first and goes on at the second. */
  lemma WordThenWord(s: string, i: nat, w: string)
    requires w != [] && forall j :: 0 <= j < |w| ==> !IsSpace(w[j])
    requires i + |w| + 1 < |s| && s[i..i + |w|] == w && s[i + |w|] == ' ' && !IsSpace(s[i + |w| + 1])
    ensures WordAt(s, i) == Span(i, i + |w|, i + |w| + 1) && Word(s, WordAt(s, i)) == w
  {
    WordAtSlice(s, i, w);
  }

  /** A word that runs to the end of the text is what WordAt finds there. */
  lemma LastWord(s: string, i: nat, w: string)
    requires w != [] && forall j :: 0 <= j < |w| ==> !IsSpace(w[j])
    requires i <= |s| && s[i..] == w
    ensures Word(s, WordAt(s, i)) == w
  {
    assert s[i..i + |w|] == w;
    WordAtSlice(s, i, w);
  }

  /** White space at the front moves SpaceEnd and WordEnd, but changes
      nothing else. */
  lemma {:induction false} ShiftEnds(p: string, s: string, i: nat)
    requires i <= |s|
    ensures SpaceEnd(p + s, |p| + i) == |p| + SpaceEnd(s, i)
    ensures WordEnd(p + s, |p| + i) == |p| + WordEnd(s, i)
    decreases |s| - i
  {
    if i < |s| {
      assert (p + s)[|p| + i] == s[i];
      ShiftEnds(p, s, i + 1);
    }
  }

  /** SpaceEnd skips a run of white space in one go or in two. */
  lemma {:induction false} SpaceEndSkips(s: string, i: nat, m: nat)
    requires i <= m <= |s|
    requires forall j :: i <= j < m ==> IsSpace(s[j])
    ensures SpaceEnd(s, i) == SpaceEnd(s, m)
    decreases m - i
  {
    if i < m {
      SpaceEndSkips(s, i + 1, m);
    }
  }

  /** upstrncmp(s + i, kw, |kw|) == 0 for an upper-case keyword `kw`: `s`
      has `kw` at position `i`, ignoring case. */
  predicate HasKeyword(s: string, i: nat, kw: string)
  {
    i + |kw| <= |s| && forall j :: 0 <= j < |kw| ==> ToUpper(s[i + j]) == kw[j]
  }

  /** A keyword of capital letters, one space and text that does not start
      with white space: the line has the keyword, and GetWord after the
      keyword's word goes on at that text. */
  lemma KeywordThenText(t: string, kw: string, rest: string)
    requires kw != [] && forall j :: 0 <= j < |kw| ==> 'A' <= kw[j] <= 'Z'
    requires t == kw + " " + rest && (rest == [] || !IsSpace(rest[0]))
    ensures HasKeyword(t, 0, kw) && t[WordAt(t, 0).next..] == rest
  {
    assert t[0..|kw|] == kw;
    assert t[|kw|] == ' ';
    if rest != [] {
      assert t[|kw| + 1] == rest[0];
    }
    WordAtSlice(t, 0, kw);
    assert t[|kw| + 1..] == rest;
    assert forall j :: 0 <= j < |kw| ==> t[j] == kw[j];
  }

  /** A line whose first word `r` is followed by white space has a keyword
      of capital letters only if `r` has it. */
  lemma KeywordWithinWord(r: string, line: string, kw: string)
    requires kw != [] && forall j :: 0 <= j < |kw| ==> 'A' <= kw[j] <= 'Z'
    requires |r| < |line| && line[..|r|] == r && IsSpace(line[|r|])
    ensures HasKeyword(line, 0, kw) ==> HasKeyword(r, 0, kw)
  {
    if |kw| <= |r| {
      assert forall j :: 0 <= j < |kw| ==> line[j] == r[j];
    } else {
      assert !HasKeyword(line, 0, kw) by {
        assert ToUpper(line[|r|]) == line[|r|] != kw[|r|];
      }
    }
  }

  /** A line with a keyword starts with the keyword's first letter,
      ignoring case. */
  lemma KeywordFirst(t: string, kw: string)
    requires kw != [] && HasKeyword(t, 0, kw)
    ensures ToUpper(t[0]) == kw[0]
  {
    assert ToUpper(t[0 + 0]) == kw[0];
  }

  /** Leading white space is trimmed away with the rest of the white space
      before the first word. */
  lemma TrimShift(ws: string, s: string)
    requires forall j :: 0 <= j < |ws| ==> IsSpace(ws[j])
    ensures (ws + s)[SpaceEnd(ws + s, 0)..] == s[SpaceEnd(s, 0)..]
  {
    ShiftEnds(ws, s, 0);
    SpaceEndSkips(ws + s, 0, |ws|);
    assert (ws + s)[|ws| + SpaceEnd(s, 0)..] == s[SpaceEnd(s, 0)..];
  }

  /** WordEnd skips a run of non-space characters in one go or in two. */
  lemma {:induction false} WordEndSkips(s: string, i: nat, m: nat)
    requires i <= m <= |s|
    requires forall j :: i <= j < m ==> !IsSpace(s[j])
    ensures WordEnd(s, i) == WordEnd(s, m)
    decreases m - i
  {
    if i < m {
      WordEndSkips(s, i + 1, m);
    }
  }

  /** SpaceEnd and WordEnd from inside `s` are those of the suffix that
      starts at `d`, moved by `d`. */
  lemma {:induction false} SuffixEnds(s: string, d: nat, i: nat)
    requires d + i <= |s|
    ensures SpaceEnd(s, d + i) == d + SpaceEnd(s[d..], i)
    ensures WordEnd(s, d + i) == d + WordEnd(s[d..], i)
    decreases |s| - d - i
  {
    if d + i < |s| {
      assert s[d..][i] == s[d + i];
      SuffixEnds(s, d, i + 1);
    }
  }

  /** A line that starts with a keyword of capital letters, ignoring case,
      starts with a word at least as long as the keyword. */
  lemma KeywordStartsWord(t: string, kw: string)
    requires kw != [] && forall j :: 0 <= j < |kw| ==> 'A' <= kw[j] <= 'Z'
    requires HasKeyword(t, 0, kw)
    ensures SpaceEnd(t, 0) == 0 && WordEnd(t, 0) == WordEnd(t, |kw|)
  {
    forall j | 0 <= j < |kw|
      ensures !IsSpace(t[j])
    {
      assert ToUpper(t[j]) == kw[j];
    }
    WordEndSkips(t, 0, |kw|);
  }

  /** Two strings that agree from `d` on agree from any later point on. */
  lemma SameSuffix(s: string, t: string, d: nat, x: nat)
    requires d <= x <= |s| && d <= |t| && s[d..] == t[d..]
    ensures s[x..] == t[x..]
  {
    assert s[x..] == s[d..][x - d..];
    assert t[x..] == t[d..][x - d..];
  }

  /** Two strings that agree from `d` on and both start with a word
      reaching past `d` start with the same word and the same rest. */
  lemma SameFirstWord(t: string, u: string, d: nat)
    requires d <= |t| && d <= |u| && u[d..] == t[d..]
    requires SpaceEnd(t, 0) == 0 && WordEnd(t, 0) == WordEnd(t, d)
    requires SpaceEnd(u, 0) == 0 && WordEnd(u, 0) == WordEnd(u, d)
    ensures WordAt(u, 0) == WordAt(t, 0)
    ensures u[WordAt(u, 0).next..] == t[WordAt(t, 0).next..]
  {
    var r := t[d..];
    SuffixEnds(t, d, 0);
    SuffixEnds(u, d, 0);
    var e := WordEnd(r, 0);
    SuffixEnds(t, d, e);
    SuffixEnds(u, d, e);
    var next := d + SpaceEnd(r, e);
    assert WordAt(t, 0) == Span(0, d + e, next) == WordAt(u, 0);
    SameSuffix(u, t, d, next);
  }

  /** Writing a keyword that `t` starts with, ignoring case, in capitals
      keeps the first word where it was and the text after it. */
  lemma CapitalizedKeyword(t: string, kw: string)
    requires kw != [] && forall j :: 0 <= j < |kw| ==> 'A' <= kw[j] <= 'Z'
    requires HasKeyword(t, 0, kw)
    ensures var u := kw + t[|kw|..];
      && HasKeyword(u, 0, kw)
      && WordAt(u, 0) == WordAt(t, 0)
      && u[WordAt(u, 0).next..] == t[WordAt(t, 0).next..]
  {
    var u := kw + t[|kw|..];
    assert u[|kw|..] == t[|kw|..];
    assert HasKeyword(u, 0, kw) by {
      assert forall j :: 0 <= j < |kw| ==> u[j] == kw[j];
    }
    KeywordStartsWord(t, kw);
    KeywordStartsWord(u, kw);
    SameFirstWord(t, u, |kw|);
  }

  /** Replacing the first word's leading characters by non-space ones
      leaves the leading white space where it was. */
  lemma TrimKept(s: string, w: string)
    requires w != [] && !IsSpace(w[0])
    requires SpaceEnd(s, 0) + |w| <= |s|
    ensures var k := SpaceEnd(s, 0); var u := s[..k] + w + s[k + |w|..];
      SpaceEnd(u, 0) == k && u[k..] == w + s[k..][|w|..]
  {
    var k := SpaceEnd(s, 0);
    var u := s[..k] + w + s[k + |w|..];
    assert u[k] == w[0];
    assert forall j :: 0 <= j < k ==> u[j] == s[j];
    SpaceEndSkips(u, 0, k);
    assert u[k..] == w + s[k..][|w|..];
  }

  /** The number of decimal digits `s` starts with. */
  function DigitRun(s: string): (n: nat)
    ensures n <= |s|
    ensures forall j :: 0 <= j < n ==> IsDigit(s[j])
    ensures n == |s| || !IsDigit(s[n])
  {
    if s == [] || !IsDigit(s[0]) then 0 else 1 + DigitRun(s[1..])
  }

  /** The value of a string of decimal digits. */
  function DigitsValue(s: string): nat
    requires forall j :: 0 <= j < |s| ==> IsDigit(s[j])
  {
    if s == [] then 0
    else
      assert IsDigit(s[|s| - 1]);
      10 * DigitsValue(s[..|s| - 1]) + (s[|s| - 1] as int - '0' as int)
  }

  /** sscanf(w, "%d", &n) on a word: an optional sign and at least one digit;
      None when no number can be read (n is then left as it was). The value
      is that of the longest run of digits after the sign, negated after a
      '-'. */
  function ScanInt(w: string): (r: Option<int>)
    ensures r.Some? <==>
              || (|w| > 0 && IsDigit(w[0]))
              || (|w| > 1 && (w[0] == '-' || w[0] == '+') && IsDigit(w[1]))
    ensures r.Some? ==>
              var sign := if w[0] == '-' || w[0] == '+' then 1 else 0;
              var digits := w[sign..sign + DigitRun(w[sign..])];
              r.value == if w[0] == '-' then -(DigitsValue(digits) as int) else DigitsValue(digits)
  {
    var sign := if |w| > 0 && (w[0] == '-' || w[0] == '+') then 1 else 0;
    var n := DigitRun(w[sign..]);
    if n == 0 then None
    else
      assert w[sign..][..n] == w[sign..sign + n];
      var v: int := DigitsValue(w[sign..sign + n]);
      if sign == 1 && w[0] == '-' then Some(-v) else Some(v)
  }

  /** The decimal digits of `n`, most significant first, with no leading
      zero: what printf("%d") writes for a non-negative number. */
  function Decimal(n: nat): (s: string)
    ensures |s| >= 1 && forall j :: 0 <= j < |s| ==> IsDigit(s[j])
    ensures |s| > 1 ==> s[0] != '0'
  {
    if n < 10 then [('0' as int + n) as char]
    else Decimal(n / 10) + [('0' as int + n % 10) as char]
  }

  /** The digits of `n` have the value `n`. */
  lemma {:induction false} DecimalValue(n: nat)
    ensures DigitsValue(Decimal(n)) == n
  {
    if n >= 10 {
      var s := Decimal(n);
      assert s[..|s| - 1] == Decimal(n / 10);
      DecimalValue(n / 10);
    }
  }

  /** A run of digits followed by something that does not start with a
      digit is read up to its end. */
  lemma {:induction false} DigitRunAppend(s: string, t: string)
    requires forall j :: 0 <= j < |s| ==> IsDigit(s[j])
    requires t == [] || !IsDigit(t[0])
    ensures DigitRun(s + t) == |s|
  {
    if s != [] {
      assert (s + t)[1..] == s[1..] + t;
      DigitRunAppend(s[1..], t);
    }
  }

  /** A run of digits that DigitRun reads to its end is read as its value. */
  lemma ScanDigits(d: string, tail: string)
    requires d != [] && forall j :: 0 <= j < |d| ==> IsDigit(d[j])
    requires DigitRun(d + tail) == |d|
    ensures ScanInt(d + tail) == Some(DigitsValue(d))
  {
    var w := d + tail;
    assert w[0] == d[0];
    assert w[0..] == w;
    assert w[0..|d|] == d;
  }

  /** The same run after a '-' is read as its value negated. */
  lemma ScanAfterMinus(w: string, d: string, tail: string)
    requires d != [] && forall j :: 0 <= j < |d| ==> IsDigit(d[j])
    requires DigitRun(d + tail) == |d|
    requires |w| > 0 && w[0] == '-' && w[1..] == d + tail
    ensures ScanInt(w) == Some(-(DigitsValue(d) as int))
  {
    assert w[1..1 + |d|] == d;
  }

  lemma ScanNegated(d: string, tail: string)
    requires d != [] && forall j :: 0 <= j < |d| ==> IsDigit(d[j])
    requires DigitRun(d + tail) == |d|
    ensures ScanInt("-" + d + tail) == Some(-(DigitsValue(d) as int))
  {
    var w := "-" + d + tail;
    assert w[0] == '-' && w[1..] == d + tail;
    ScanAfterMinus(w, d, tail);
  }

  /** sscanf("%d") reads back a non-negative number written with
      printf("%d"), whatever follows it that is not a digit. */
  lemma ScanIntReadsDecimal(n: nat, tail: string)
    requires tail == [] || !IsDigit(tail[0])
    ensures ScanInt(Decimal(n) + tail) == Some(n)
  {
    DecimalValue(n);
    DigitRunAppend(Decimal(n), tail);
    ScanDigits(Decimal(n), tail);
  }

  /** sscanf("%d") reads back a negative number written with printf("%d"),
      a '-' and the digits of its magnitude, whatever follows it that is
      not a digit. */
  lemma ScanIntReadsNegative(n: nat, tail: string)
    requires n > 0
    requires tail == [] || !IsDigit(tail[0])
    ensures ScanInt("-" + Decimal(n) + tail) == Some(-(n as int))
  {
    DecimalValue(n);
    DigitRunAppend(Decimal(n), tail);
    ScanNegated(Decimal(n), tail);
  }
}

=== FILE: wrappers.dfy ===
/** The optional value used for "found / not found" and "read / failed". */
module Wrappers {
  datatype Option<+T> = None | Some(value: T)
}
